=== FILE: README.md ===
# CustosBot moderation kernel in Dafny

CustosBot is a Telegram chat-manager bot. This project models its
moderation policy and the store it runs on:

- the rank, permission and cooldown tables;
- the per-moderator rate limiter;
- target extraction from commands and replies;
- the `/upstaff` promotion rule and the owner-transfer confirmation;
- the gates and escalation of `/ban`, `/warn` and `/kick`;
- the `/staff` listing;
- the SQLite tables the handlers read and write;
- the profile commands `/me`, `/you`, `/nickname` and `/description`;
- the callback data of the confirmation button and the menu-button texts.

Modules, one per source file, plus three support modules:

| file | module | models |
|---|---|---|
| `config.dfy` | `Config` | `config.py`: `RANKS`, `RANK_NAMES`, `COMMAND_PERMISSIONS`, `RATE_LIMITS` |
| `database.dfy` | `Database` | `data/database.py`: the `users`, `chat_members`, `warnings` and `message_stats` tables as a class with `map`/`seq` fields |
| `moderation_handlers.dfy` | `ModerationHandlers` | `handlers/moderation_handlers.py` |
| `user_handlers.dfy` | `UserHandlers` | `handlers/user_handlers.py` |
| `keyboards.dfy` | `Keyboards` | `keyboards/main_keyboards.py` |
| `main_handlers.dfy` | `MainHandlers` | the two text filters of `handlers/main_handlers.py` |
| `pytext.dfy` | `PyText` | the Python string operations the handlers use: `strip`, `split()`, `split(maxsplit=k)`, `split(sep)`, `startswith`, `isdigit`, `str(int)`, `int(str)`, the last two over ASCII digits |
| `platform.dfy` | `Platform` | the message fields the handlers read, and Python's `a or b` on optional strings |
| `wrappers.dfy` | `Wrappers` | `Option` |

How the model is set up:

- **Handlers.** Each handler is a method over a `Database.Database` object and a `Platform.Message`. Its reply is reduced to an outcome value; message texts are not modelled.
- **Platform calls.** The chat platform's `ban` and `unban` calls become boolean inputs that say whether the call succeeds.
- **Time.** `datetime.now()` becomes an integer `now` in seconds. The day string of `increment_message_count` becomes a `today` parameter.
- **Rate limiter.** The module-level dict `rate_limits` is the `RateLimiter` class.
- **`chat_members`.** It is a sequence in table order. `UNIQUE(user_id, chat_id)` is the class invariant `Valid()`. A query reads the first matching row.
- **Ranks.** Ranks stay strings, as the store holds them. So a rank outside `RANKS` is representable, and the handlers' `KeyError` on such a rank is modelled.

Behaviour of the code that the model follows, where one might expect otherwise:

- **`/upstaff` arithmetic.** The new level is `min(level + delta, 3)`, so a negative step demotes.
- **Administrators can make owners.** An administrator who raises a non-owner to level 3 makes that user an owner at once, with no confirmation (`AdministratorCreatesOwnerDirectly`). Only an owner raising someone to owner is asked to confirm.
- **No actor-versus-target comparison.** `/ban`, `/warn` and `/kick` never compare the two ranks, so a moderator may warn an owner.
- **The owner transfer.**
  - It has no expiry.
  - Its two writes are separate. When the target has no row, the first write is a no-op and the clicker is still demoted: the clicker loses owner rank and the target gains none (`TransferEffect`).
  - A clicker who names themself ends up an administrator.
- **Target word.** `get_target_user` always reads the third word of the text. For `/ban`, `/warn` and `/kick` that word is the first word of the reason, not the second word where the usage text puts the user. So, without a reply, `/ban 12345 spam` names no one, and `/ban x 12345` bans user 12345 (`TargetIsThirdWord`, `BanByIdNamesNoOne`, `BanReasonTakenAsId`).
- **Usernames are not resolved.** An `@name` target yields id 0. So `/upstaff`, `/ban`, `/warn`, `/kick` and `/you` given `@name` without a reply all end in their "no target" outcome (`ProfileTargetByUsername`).
- **A failed kick can leave a ban.** If the ban step of `/kick` succeeds and the unban fails, the user stays banned although the reply reports failure (`KickFailed.leftBanned`).
- **A malformed command still uses the window.** The rate check of `/warn` and `/kick` runs, and records the time, before the arguments are parsed.

## Model

| member | source | states |
|---|---|---|
| Config.RanksAreFourOrderedLevels | CustosBot/config.py:35-40 | `RANKS` has exactly the four rank names, maps them injectively into 0..3, and orders participant < moderator < administrator < owner |
| Config.RankItemsMatchRanks | CustosBot/config.py:35-40 | the iteration-order list of `RANKS` entries holds exactly the map's entries |
| Config.RankNamesCoverRanks | CustosBot/config.py:42-47 | `RANK_NAMES` has the same key set as `RANKS` |
| Config.PermissionsExact | CustosBot/config.py:50-55 | the allow-lists are exactly: upstaff and ban for administrator and owner; warn and kick for moderator, administrator and owner; participant and a missing rank for none |
| Config.PermissionsUpwardClosed | CustosBot/config.py:35-55 | if a rank may run a command, every rank of equal or higher level may too |
| Config.CooldownsModeratorOnly | CustosBot/config.py:58-61 | cooldowns exist only for moderators: warn 3600 s, kick 900 s |
| Config.RankAtLevel | CustosBot/handlers/moderation_handlers.py:100-105 | the level search finds a rank exactly when the level is in 0..3, and the rank found has that level |
| Config.RankLabel | CustosBot/handlers/user_handlers.py:64 | a rank of `RANK_NAMES` shows its label; a missing or unknown rank shows 'Неизвестен' |
| Platform.Or | CustosBot/handlers/user_handlers.py:17 | `a or b` is `a` when `a` is present and non-empty, else `b` |
| Platform.FallbackNameCases | CustosBot/handlers/moderation_handlers.py:39-41 | a replied-to user is named by first name, else username, else the decimal id |
| PyText.Strip | CustosBot/handlers/user_handlers.py:164 | `strip()` is the slice of its input left between a leading and a trailing run of whitespace, and neither of its ends is whitespace |
| PyText.LStripSuffix | CustosBot/handlers/user_handlers.py:164 | `lstrip()` keeps a suffix of its input and drops only whitespace |
| PyText.RStripPrefix | CustosBot/handlers/user_handlers.py:164 | `rstrip()` drops only whitespace |
| PyText.StripPadded | CustosBot/handlers/user_handlers.py:164 | whitespace of any length on either side of a trimmed (or empty) value is removed by `strip()`, which gives back exactly that value |
| PyText.StripUntrimmed | CustosBot/handlers/user_handlers.py:164 | a string with no surrounding whitespace is its own `strip()` |
| PyText.SplitNAgrees | CustosBot/handlers/moderation_handlers.py:179 | `split(maxsplit=k)` yields `min(n, k+1)` parts, where `n` is the number of `split()` parts, and its first `k` parts are those of `split()` |
| PyText.SplitWords | CustosBot/handlers/moderation_handlers.py:44 | `(w + " " + rest).split()` is `w` followed by `rest.split()` when `w` is one word |
| PyText.SplitWord | CustosBot/handlers/moderation_handlers.py:44 | a single word splits into itself |
| PyText.TokenOfWord | CustosBot/handlers/moderation_handlers.py:44 | a word followed by whitespace or the end is read as exactly one token |
| PyText.SplitOn | CustosBot/handlers/moderation_handlers.py:149 | `split(sep)` yields at least one part, at least two when `sep` occurs, and no part contains `sep` |
| PyText.LastPartAfterSeparator | CustosBot/handlers/moderation_handlers.py:149 | the last part of `(p + sep + q).split(sep)` is `q` when `q` has no `sep` |
| PyText.NatToStringValue | CustosBot/keyboards/main_keyboards.py:25 | the decimal digits of `str(n)` have value `n` |
| PyText.IntToStringChars | CustosBot/keyboards/main_keyboards.py:25 | a numeral contains no '_', and neither begins nor ends with whitespace |
| PyText.ParseDigitString | CustosBot/handlers/moderation_handlers.py:50-51 | `int(s)` of an ASCII digit string is the value of its digits |
| PyText.IntRoundTrip | CustosBot/handlers/moderation_handlers.py:149 | `int(str(n)) == n` for every integer, negative ones included (Python's 4300-digit conversion limit is not modelled, see "## Left out") |
| PyText.DigitsAreWord | CustosBot/handlers/user_handlers.py:27 | a digit string is a single whitespace-free word |
| PyText.LStripChar | CustosBot/data/database.py:277 | `lstrip('@')` removes exactly a prefix made of '@' and leaves a string that does not begin with '@' |
| Database.FindRow | CustosBot/data/database.py:101-108 | the row `fetchone` returns: the first row of the (user, chat) pair, or none exactly when no row matches |
| Database.SetRank | CustosBot/data/database.py:93-99 | `UPDATE ... SET rank` changes the rank of the matching rows and nothing else |
| Database.BumpCount | CustosBot/data/database.py:239-242 | `UPDATE ... message_count + 1` adds one to the matching rows and changes nothing else |
| Database.CountWarnings | CustosBot/data/database.py:119-126 | the `COUNT(*)` of warnings for a pair never exceeds the number of warnings; how each warning moves it is stated by `Database.AddWarningCount` |
| Database.StaffQuery | CustosBot/data/database.py:165-178 | the join returns only the chat's non-participant rows whose user has a `users` row, and every such row |
| Database.StaffQueryMultiplicity | CustosBot/data/database.py:165-178 | the join returns each qualifying row as many times as the table holds it, and no other row |
| Database.StaffQueryAppend | CustosBot/data/database.py:165-178 | the join keeps table order: the query of two concatenated tables is the concatenation of their queries |
| Database.StaffQueryUnique | CustosBot/data/database.py:165-178 | the join of a table whose (user, chat) pairs are unique has unique pairs |
| Database.Select | CustosBot/data/database.py:180-190 | a rank's list holds exactly the entries of query rows with that rank, each user as many times as the query rows give that user that rank |
| Database.SelectAppend | CustosBot/data/database.py:180-190 | grouping keeps the query's order: the list for two concatenated row sequences is the concatenation of their lists |
| Database.FirstWithUsername | CustosBot/data/database.py:280-286 | it finds a member of the chat whose user has that username, or none exactly when no such member exists |
| Database.Database.constructor | CustosBot/data/database.py:10-73 | the tables start empty |
| Database.Database.AddUser | CustosBot/data/database.py:75-82 | `INSERT OR REPLACE` writes the user row with nickname and description reset to null; nothing else changes |
| Database.Database.AddChatMember | CustosBot/data/database.py:84-91 | `INSERT OR IGNORE` appends the row only when the pair is new; the pair stays unique |
| Database.Database.UpdateUserRank | CustosBot/data/database.py:93-99 | the rank update as `SetRank`; only `chat_members` changes |
| Database.Database.GetUserRank | CustosBot/data/database.py:101-108 | None exactly when no row for the pair exists; otherwise the rank of such a row |
| Database.Database.AddWarning | CustosBot/data/database.py:110-117 | exactly one warning row is appended |
| Database.Database.GetWarningCount | CustosBot/data/database.py:119-126 | the count of the pair's warnings |
| Database.Database.SetUserNickname | CustosBot/data/database.py:128-134 | the nickname of an existing user row is set; a missing row makes it a no-op |
| Database.Database.SetUserDescription | CustosBot/data/database.py:136-142 | the description of an existing user row is set; a missing row makes it a no-op |
| Database.Database.GetUserInfo | CustosBot/data/database.py:144-160 | the user's row, or None exactly when there is none |
| Database.Database.GetStaffList | CustosBot/data/database.py:162-192 | the loop puts each query row in the list of its own rank, in order; rows of any other rank are dropped |
| Database.Database.IncrementMessageCount | CustosBot/data/database.py:225-244 | the day's count becomes 2 on the first call of the day and grows by one afterwards; the member total is bumped |
| Database.Database.GetUserMessageCount | CustosBot/data/database.py:246-254 | the member row's total, or 0 without a row |
| Database.Database.FindUserByUsername | CustosBot/data/database.py:274-286 | the match is on the username with every leading '@' removed |
| Database.FindRowAppend | CustosBot/data/database.py:88 | after an append the first matching row is the old one, else the new row |
| Database.AddChatMemberRank | CustosBot/data/database.py:84-91 | `add_chat_member` never changes an existing pair's rank; a new pair gets the given rank; other pairs are unaffected |
| Database.FindRowSetRank | CustosBot/data/database.py:97 | a rank update does not move the first matching row of any pair |
| Database.UpdateUserRankEffect | CustosBot/data/database.py:93-99 | `update_user_rank` sets the pair's rank when its row exists, is a no-op otherwise, and leaves every other pair's rank |
| Database.FindRowBumpCount | CustosBot/data/database.py:240-241 | a count update does not move the first matching row of any pair |
| Database.IncrementMessageCountEffect | CustosBot/data/database.py:239-242 | the member total read back grows by one exactly when the member row exists; ranks are unchanged |
| Database.AddWarningCount | CustosBot/data/database.py:110-126 | a new warning raises its own pair's count by exactly one and no other pair's count |
| Database.StaffListExact | CustosBot/data/database.py:162-192 | an entry is in a staff rank's list iff a member row of that chat has that rank and a `users` row, so participants and unrecognised ranks never appear |
| Database.StaffListOnce | CustosBot/data/database.py:162-192 | with the `UNIQUE(user_id, chat_id)` constraint, each member of a rank with a `users` row is listed exactly once under that rank, and no other user is listed there |
| Database.CountRankedUnique | CustosBot/data/database.py:35 | in rows of one chat with unique pairs, a user holds a given rank in at most one row |
| Database.UsernameIgnoresAt | CustosBot/data/database.py:277 | a leading '@' makes no difference to the username searched |
| ModerationHandlers.RateLimiter.constructor | CustosBot/handlers/moderation_handlers.py:14 | the rate-limit map starts empty |
| ModerationHandlers.RateLimiter.CheckRateLimit | CustosBot/handlers/moderation_handlers.py:16-34 | the answer is `RateAllows` of the old map, and the new map is the old one with `now` recorded on a pass by a non-exempt rank |
| ModerationHandlers.ExemptRanksPass | CustosBot/handlers/moderation_handlers.py:18-19 | administrators and owners always pass, and the map is untouched |
| ModerationHandlers.ModeratorCooldowns | CustosBot/handlers/moderation_handlers.py:24-33 | a moderator is refused warn within 3600 s and kick within 900 s of the recorded use, with the record kept; at or after the window they pass and the record becomes `now` |
| ModerationHandlers.FirstUsePasses | CustosBot/handlers/moderation_handlers.py:24-34 | a first use always passes and records the time unless the rank is exempt |
| ModerationHandlers.LimitKeyInjective | CustosBot/handlers/moderation_handlers.py:21 | distinct (user, command) pairs of warn and kick have distinct keys |
| ModerationHandlers.WindowsIndependent | CustosBot/handlers/moderation_handlers.py:21-33 | a check on one (user, command) pair never changes whether another pair passes, so the warn and kick windows are independent |
| ModerationHandlers.WordTarget | CustosBot/handlers/moderation_handlers.py:44-53 | `@name` gives id 0 with the name kept, a digit string gives its value, anything else gives (0, "") |
| ModerationHandlers.GetTargetUser | CustosBot/handlers/moderation_handlers.py:36-53 | the replied-to user first, else the third word of the text, else (0, "") |
| ModerationHandlers.TargetById | CustosBot/handlers/moderation_handlers.py:44-51 | without a reply, `<command> <step> <id>` names user `id` |
| ModerationHandlers.TargetIsThirdWord | CustosBot/handlers/moderation_handlers.py:44 | without a reply the target is always the third word, for every command |
| ModerationHandlers.BanByIdNamesNoOne | CustosBot/handlers/moderation_handlers.py:179-190 | `/ban 12345 spam` without a reply names no one |
| ModerationHandlers.BanReasonTakenAsId | CustosBot/handlers/moderation_handlers.py:179-190 | `/ban x 12345` without a reply names user 12345 |
| ModerationHandlers.PromotionDecision | CustosBot/handlers/moderation_handlers.py:97-126 | with the new level `min(level + delta, 3)`, each outcome holds exactly under its condition: unknown rank, no new rank, administrator on owner, confirmation, or the rank of the new level |
| ModerationHandlers.ZeroStepIsRejected | CustosBot/handlers/moderation_handlers.py:107 | a zero step never changes a rank |
| ModerationHandlers.AdministratorNeverMovesOwner | CustosBot/handlers/moderation_handlers.py:112 | an administrator can never change an owner's rank |
| ModerationHandlers.PromotionCappedAtOwner | CustosBot/handlers/moderation_handlers.py:98 | a step past the top is capped at owner |
| ModerationHandlers.AdministratorCreatesOwnerDirectly | CustosBot/handlers/moderation_handlers.py:117-126 | an administrator raising a non-owner to level 3 makes an owner with no confirmation |
| ModerationHandlers.NegativeStepDemotes | CustosBot/handlers/moderation_handlers.py:98-107 | a negative step demotes to the lower level, and below participant it is rejected |
| ModerationHandlers.UpstaffCommand | CustosBot/handlers/moderation_handlers.py:55-130 | the outcome is `Upstaff` of the old rows; only a promotion writes, and it writes the target's rank alone |
| ModerationHandlers.UpstaffNeedsPermission | CustosBot/handlers/moderation_handlers.py:66-69 | without an allowed stored rank, `/upstaff` is refused |
| ModerationHandlers.UpstaffParsed | CustosBot/handlers/moderation_handlers.py:61-95 | every outcome past the usage checks comes from a message in a group, by a permitted actor, with a numeric step |
| ModerationHandlers.PromotionRule | CustosBot/handlers/moderation_handlers.py:97-126 | a promotion by a permitted actor sets the target to the rank of `min(level + delta, 3)`, which differs from its rank; the actor is an administrator or owner; an administrator never acts on an owner and an owner never makes an owner this way |
| ModerationHandlers.ResolveConfirmation | CustosBot/handlers/moderation_handlers.py:117-119 | a confirmation goes only to an owner, and its data is the "promote_owner" data of the target |
| ModerationHandlers.UpstaffOwnerTransferIsConfirmed | CustosBot/handlers/moderation_handlers.py:117-123 | a confirmation is sent only to an owner, and its data carries the handler's prefix and decodes to the target |
| ModerationHandlers.AdminOnOwnerWritesNothing | CustosBot/handlers/moderation_handlers.py:112-114 | an administrator acting on a stored owner neither promotes nor asks for confirmation, whatever the step |
| ModerationHandlers.ConfirmOwnerPromotion | CustosBot/handlers/moderation_handlers.py:132-160 | the outcome is `Confirm` of the old rows; only a transfer writes, target to owner, then clicker to administrator |
| ModerationHandlers.TransferEffect | CustosBot/handlers/moderation_handlers.py:155-156 | after a transfer the clicker is an administrator, the target is an owner if it has a row and is not the clicker, and every other rank is unchanged |
| ModerationHandlers.ConfirmNeedsCurrentOwner | CustosBot/handlers/moderation_handlers.py:142-145 | a clicker whose current stored rank is not owner changes nothing |
| ModerationHandlers.ConfirmationButtonTransfers | CustosBot/handlers/moderation_handlers.py:132-156 | a confirmation button the bot sent transfers to the user it names when an owner clicks it |
| ModerationHandlers.BanCommand | CustosBot/handlers/moderation_handlers.py:162-197 | refused outside groups and without permission; a ban is attempted iff there are three parts and a target; the reason is the third part; no rate limiter is involved |
| ModerationHandlers.WarnCommand | CustosBot/handlers/moderation_handlers.py:199-247 | the permission gate, then the rate check with its record, even for a malformed command; a recorded warning appends exactly one row, re-counts, and attempts a ban iff the count is at least 5; a failed ban keeps the warning |
| ModerationHandlers.WarnEscalation | CustosBot/handlers/moderation_handlers.py:235-240 | each warning raises its target's count by one, so the fifth is the first at the ban threshold |
| ModerationHandlers.KickCommand | CustosBot/handlers/moderation_handlers.py:249-290 | the permission gate, then the rate check; the kick succeeds iff both ban and unban succeed; a failure after the ban leaves the user banned |
| ModerationHandlers.Bullets | CustosBot/handlers/moderation_handlers.py:309-311 | a non-empty section's bullets end with a newline; the one-line-per-entry order is stated by `ModerationHandlers.AppendBullets` |
| ModerationHandlers.StaffCommand | CustosBot/handlers/moderation_handlers.py:292-332 | refused in private chats; otherwise the reply is `StaffText` of the store's staff list |
| ModerationHandlers.RenderStaff | CustosBot/handlers/moderation_handlers.py:303-330 | the text built section by section is `StaffText` of the list |
| ModerationHandlers.AppendSection | CustosBot/handlers/moderation_handlers.py:307-312 | a section is appended with title, bullets and tail only when it has entries |
| ModerationHandlers.AppendBullets | CustosBot/handlers/moderation_handlers.py:309-311 | the loop appends one bullet per member, in order |
| ModerationHandlers.StaffTextNoneMessage | CustosBot/handlers/moderation_handlers.py:329-330 | with no staff the text is the header followed by "Персонал не назначен."; otherwise it ends with a newline |
| UserHandlers.GetTargetUserForProfile | CustosBot/handlers/user_handlers.py:12-30 | the replied-to user first, else the second word of the text, else (0, "") |
| UserHandlers.ProfileTargetById | CustosBot/handlers/user_handlers.py:20-28 | without a reply, `<command> <id>` names user `id` |
| UserHandlers.ProfileTargetByUsername | CustosBot/handlers/user_handlers.py:24-26 | without a reply, `<command> @name` gives id 0 |
| UserHandlers.ParseNickname | CustosBot/handlers/user_handlers.py:162-168 | after the first prefix that starts the text, in source order, the nickname is the `strip()` of the rest (`PyText.IsStripOf`); it is empty when none of the three prefixes starts the text |
| UserHandlers.ParseDescription | CustosBot/handlers/user_handlers.py:197-203 | after the first prefix that starts the text, in source order, the description is the `strip()` of the rest (`PyText.IsStripOf`); it is empty when none of the three prefixes starts the text |
| UserHandlers.NicknameRoundTrip | CustosBot/handlers/user_handlers.py:162-168 | after each prefix a trimmed nickname is read back unchanged |
| UserHandlers.DescriptionRoundTrip | CustosBot/handlers/user_handlers.py:197-203 | after each prefix a trimmed description is read back unchanged, "+описание " included although it begins like "+опис" |
| UserHandlers.NicknameStripsPadding | CustosBot/handlers/user_handlers.py:162-168 | after each prefix, whitespace of any length around a trimmed nickname is dropped, and text of whitespace only gives the empty nickname |
| UserHandlers.DescriptionStripsPadding | CustosBot/handlers/user_handlers.py:197-203 | after each prefix, whitespace of any length around a trimmed description is dropped, and text of whitespace only gives the empty description |
| UserHandlers.NicknameAfterPrefix | CustosBot/handlers/user_handlers.py:162-168 | each of the three prefixes is recognised as itself, and the nickname is the `strip()` of whatever follows it |
| UserHandlers.DescriptionAfterPrefix | CustosBot/handlers/user_handlers.py:197-203 | each of the three prefixes is recognised as itself, "+описание " included, and the description is the `strip()` of whatever follows it |
| UserHandlers.Validate | CustosBot/handlers/user_handlers.py:170-177 | a value is accepted iff it is non-empty and within the limit, and is then stored unchanged |
| UserHandlers.NicknameCommand | CustosBot/handlers/user_handlers.py:147-180 | refused outside groups; an empty or over-50 nickname writes nothing; otherwise the stripped nickname is stored on the sender's row |
| UserHandlers.DescriptionCommand | CustosBot/handlers/user_handlers.py:182-215 | refused outside groups; an empty or over-200 description writes nothing; otherwise the stripped description is stored on the sender's row |
| UserHandlers.MeDisplayName | CustosBot/handlers/user_handlers.py:57-58 | the display name is the nickname if set, else the first name, else the username, else the id |
| UserHandlers.DescriptionShown | CustosBot/handlers/user_handlers.py:66-69 | the description is shown exactly when the user has a non-empty one |
| UserHandlers.MeCommand | CustosBot/handlers/user_handlers.py:32-82 | in a group the sender's profile is always shown, with display name, message total, rank label and description as read from the store |
| UserHandlers.YouCommand | CustosBot/handlers/user_handlers.py:84-145 | no target id gives the "specify a user" outcome; a target with no or an empty stored rank gives "not found"; otherwise the target's profile is shown |
| UserHandlers.ProfileRankFallback | CustosBot/handlers/user_handlers.py:64 | a user with no row shows 'Неизвестен' and zero messages; a stored rank of `RANKS` shows its label |
| Keyboards.MenuButtons | CustosBot/keyboards/main_keyboards.py:10-20 | the reply keyboard has two buttons; which handler each text reaches is stated by `MainHandlers.MenuButtonsDispatch` |
| Keyboards.PromoteOwnerDataRouted | CustosBot/keyboards/main_keyboards.py:25 | "promote_owner" data is "confirm_promote_owner_" followed by the id, so the confirmation handler's filter matches it |
| Keyboards.ConfirmationRoundTrip | CustosBot/keyboards/main_keyboards.py:25 | `int(data.split("_")[-1])` gives back the id for every action and every integer id |
| MainHandlers.MenuButtonsDispatch | CustosBot/handlers/main_handlers.py:114-168 | the two menu buttons reach the "My chats" and "Commands" handlers, and no other text reaches either |

## Left out

- `utils/image_generator.py` and the profile and menu images: image generation, HTTP downloads, file writes and the photo-or-text fallback are I/O.
- `main.py`: bot start-up, dispatcher wiring and polling.
- `handlers/main_handlers.py` apart from the two text filters: the menu, help, start and chat-list handlers render UI text over store reads.
- Message texts and Markdown formatting of replies: each handler returns an outcome value instead. The `/staff` reply text is kept because its grouping is part of the model.
- The chat platform: `chat.ban`, `chat.unban`, `edit_text` and `callback.answer` are not modelled. Ban and unban are boolean inputs saying whether they succeed.
- `async`/`await`, concurrent handlers and locking of the rate-limit map: handlers run one at a time.
- The `chats` table, `add_chat`, `get_user_chats`, `get_chat_stats`, `find_user_by_nickname` and `find_user_by_name`: none of the modelled handlers uses them.
- Timestamps (`created_at`, `joined_at`, `issued_at`, `added_at`) and the `id` columns: nothing reads them.
- `datetime.now()` and `strftime`: they become the parameters `now` and `today`.
- The SQL engine. Rows are kept in insertion order. The order SQLite returns rows within one rank of `get_staff_list`, which its `ORDER BY` leaves open, is taken to be table order.
- PyText.IsDigitString: only ASCII digits are modelled, so for a target word of other Unicode digits the model answers `(0, "")`. The code differs in two ways. `str.isdigit` accepts such a word, and where `int` accepts it too (the decimal digits of other scripts) the code returns its value. Where `int` rejects it (such as '²' or '①'), `get_target_user` (moderation_handlers.py:50-51) and `get_target_user_for_profile` (user_handlers.py:27-28) raise an uncaught `ValueError`.
- PyText.ParseInt: accepts ASCII digits only, and Python's `int` also accepts the decimal digits of other scripts (`int('٣') == 3`). So where the code reads such a number, the model answers `None`: the `/upstaff` step (moderation_handlers.py:80) ends in the bad-number refusal instead of a promotion, and a callback id (moderation_handlers.py:149) counts as malformed. The model does not have the limit that Python 3.11 and later put on conversions between `int` and `str`, which raise `ValueError` at 4300 digits or more. So `PyText.IntRoundTrip` holds here for integers of any size, where Python raises instead.
- PyText.IsSpace: it follows `str.isspace` over code points; Unicode normalisation and case folding play no part.
- The `F.text.lower() == "кто я"` and `"кто ты"` triggers of `/me` and `/you`: case folding of Cyrillic is not modelled, and the handlers do not depend on how they were reached.
- ModerationHandlers.WarnCommand, ModerationHandlers.UpstaffCommand, UserHandlers.YouCommand: ids are unbounded integers here. SQLite binds an INTEGER parameter only if it fits in 64 bits (below 2^63), and Python's `sqlite3` raises an uncaught `OverflowError` for a larger one. So for a digit target word of 2^63 or more (`get_target_user`, moderation_handlers.py:50-51, and `get_target_user_for_profile`, user_handlers.py:27-28), the code fails where the model does not.
  - `/warn` raises at `add_warning` (moderation_handlers.py:235) and writes no warning, where `WarnCommand` records one.
  - `/upstaff` raises at `get_user_rank` (moderation_handlers.py:92), where `UpstaffCommand` answers that the target is not in the chat.
  - `/you` raises at `get_user_info` (user_handlers.py:111), where `YouCommand` answers not-in-chat.

  In the last two the store is unchanged either way.
- Exceptions other than the ones below are not modelled: the uncaught `OverflowError` above, and any error the chat platform's calls raise. The ones modelled are the `KeyError` of an unknown stored rank in `/upstaff` and the `ValueError` of a non-numeric `/upstaff` step or callback id.

=== FILE: config.dfy ===
/**
 * The bot's constant policy tables: the four ranks and their levels, the
 * rank labels shown to users, the per-command allow-lists and the
 * moderator cooldowns. Ranks are kept as the strings the store holds.
 */
module Config {
  import opened Wrappers

  /** `RANKS`: rank name to authority level. */
  const Ranks: map<string, int> :=
    map["participant" := 0, "moderator" := 1, "administrator" := 2, "owner" := 3]

  /** The entries of `RANKS` in the dictionary's (insertion) iteration order. */
  const RankItems: seq<(string, int)> :=
    [("participant", 0), ("moderator", 1), ("administrator", 2), ("owner", 3)]

  /** The highest level, that of the owner. */
  const MaxLevel: int := 3

  /** `RANK_NAMES`: the label shown for each rank. */
  const RankNames: map<string, string> :=
    map["participant" := "Участник", "moderator" := "Модератор",
        "administrator" := "Администратор", "owner" := "Владелец"]

  /** `COMMAND_PERMISSIONS`: the ranks allowed to run each moderation command. */
  const CommandPermissions: map<string, seq<string>> :=
    map["upstaff" := ["administrator", "owner"],
        "ban" := ["administrator", "owner"],
        "warn" := ["moderator", "administrator", "owner"],
        "kick" := ["moderator", "administrator", "owner"]]

  /** `RATE_LIMITS`: cooldowns in seconds, keyed by command and rank. */
  const RateLimits: map<string, int> :=
    map["warn_moderator" := 3600, "kick_moderator" := 900]

  /**
   * The first rank name, in `RANKS` iteration order, whose level is `level`
   * (the search loop of `upstaff_command`).
   */
  function RankAtLevel(level: int): (r: Option<string>)
    ensures r.Some? <==> 0 <= level <= MaxLevel
    ensures r.Some? ==> r.value in Ranks && Ranks[r.value] == level
  {
    RankItemsMatchRanks();
    var r := FindLevel(RankItems, level);
    assert r.None? ==> !(0 <= level <= MaxLevel) by {
      if 0 <= level <= MaxLevel { assert RankItems[level].1 == level; }
    }
    r
  }

  /** The name of the first entry of `items` whose level is `level`, if any. */
  function FindLevel(items: seq<(string, int)>, level: int): (r: Option<string>)
    ensures r.None? <==> forall i :: 0 <= i < |items| ==> items[i].1 != level
    ensures r.Some? ==> exists i :: 0 <= i < |items| && items[i] == (r.value, level)
  {
    if items == [] then None
    else if items[0].1 == level then Some(items[0].0)
    else FindLevel(items[1..], level)
  }

  /**
   * The handlers' gate `not rank or rank not in COMMAND_PERMISSIONS[command]`
   * negated: a stored, non-empty rank listed for the command.
   */
  predicate Permitted(rank: Option<string>, command: string)
    requires command in CommandPermissions
  {
    rank.Some? && rank.value != "" && rank.value in CommandPermissions[command]
  }

  /** `RANK_NAMES.get(rank, 'Неизвестен')`. */
  function RankLabel(rank: Option<string>): (shown: string)
    ensures rank.Some? && rank.value in RankNames ==> shown == RankNames[rank.value]
    ensures (rank.None? || rank.value !in Ranks) ==> shown == "Неизвестен"
  {
    if rank.Some? && rank.value in RankNames then RankNames[rank.value] else "Неизвестен"
  }

  // ---------------------------------------------------------------- properties

  /** `RANKS` maps exactly the four rank names, injectively, onto 0..3, in authority order. */
  lemma RanksAreFourOrderedLevels()
    ensures Ranks.Keys == {"participant", "moderator", "administrator", "owner"}
    ensures forall a, b :: a in Ranks && b in Ranks && Ranks[a] == Ranks[b] ==> a == b
    ensures forall a :: a in Ranks ==> 0 <= Ranks[a] <= MaxLevel
    ensures Ranks["participant"] < Ranks["moderator"] < Ranks["administrator"] < Ranks["owner"]
  {
  }

  /** `RankItems` lists exactly the entries of `RANKS`. */
  lemma RankItemsMatchRanks()
    ensures forall i :: 0 <= i < |RankItems| ==> RankItems[i].0 in Ranks && Ranks[RankItems[i].0] == RankItems[i].1
    ensures forall a :: a in Ranks ==> exists i :: 0 <= i < |RankItems| && RankItems[i].0 == a
  {
    assert RankItems[0].0 == "participant";
    assert RankItems[1].0 == "moderator";
    assert RankItems[2].0 == "administrator";
    assert RankItems[3].0 == "owner";
  }

  /** `RANK_NAMES` labels exactly the ranks of `RANKS`. */
  lemma RankNamesCoverRanks()
    ensures RankNames.Keys == Ranks.Keys
  {
  }

  /**
   * The allow-lists are exactly: upstaff and ban for administrator and owner;
   * warn and kick also for moderator; no command for participant.
   */
  lemma PermissionsExact()
    ensures CommandPermissions.Keys == {"upstaff", "ban", "warn", "kick"}
    ensures forall r :: Permitted(Some(r), "upstaff") <==> r == "administrator" || r == "owner"
    ensures forall r :: Permitted(Some(r), "ban") <==> r == "administrator" || r == "owner"
    ensures forall r :: Permitted(Some(r), "warn") <==> r == "moderator" || r == "administrator" || r == "owner"
    ensures forall r :: Permitted(Some(r), "kick") <==> r == "moderator" || r == "administrator" || r == "owner"
    ensures forall c :: c in CommandPermissions ==> !Permitted(Some("participant"), c) && !Permitted(None, c)
  {
  }

  /** Every allow-list is closed upwards in the `RANKS` order. */
  lemma PermissionsUpwardClosed(command: string, r: string, r': string)
    requires command in CommandPermissions
    requires Permitted(Some(r), command)
    requires r' in Ranks && Ranks[r'] >= Ranks[r]
    ensures Permitted(Some(r'), command)
  {
    assert r in Ranks;
  }

  /** Cooldowns exist for the moderator rank only: warn 3600 s, kick 900 s. */
  lemma CooldownsModeratorOnly()
    ensures RateLimits.Keys == {"warn_moderator", "kick_moderator"}
    ensures RateLimits["warn_moderator"] == 3600 && RateLimits["kick_moderator"] == 900
  {
  }
}

=== FILE: database.dfy ===
/**
 * The bot's SQLite store as in-memory tables. `chat_members` is a sequence
 * of rows in table order (its `UNIQUE(user_id, chat_id)` constraint is the
 * class invariant), `users` a map keyed by its primary key, `warnings` an
 * append-only sequence and `message_stats` a map keyed by its unique
 * (user, chat, date) triple. Each statement keeps its SQL conflict
 * semantics: INSERT OR IGNORE keeps an existing row, INSERT OR REPLACE
 * replaces the whole row, UPDATE of a missing row does nothing.
 */
module Database {
  import opened Wrappers
  import PyText

  /** A `users` row (without `created_at`). */
  datatype UserRow = UserRow(
    username: Option<string>,
    firstName: Option<string>,
    lastName: Option<string>,
    nickname: Option<string>,
    description: Option<string>)

  /** A `chat_members` row (without its id and `joined_at`). */
  datatype Member = Member(userId: int, chatId: int, rank: string, messageCount: int)

  /** A `warnings` row (without its id and `issued_at`). */
  datatype Warning = Warning(userId: int, chatId: int, reason: string, issuedBy: int)

  /** The unique key of a `message_stats` row. */
  datatype StatKey = StatKey(userId: int, chatId: int, date: string)

  /** One entry of the staff list: the joined `users` columns of a member. */
  datatype StaffEntry = StaffEntry(userId: int, username: Option<string>, firstName: Option<string>, nickname: Option<string>)

  /** The dictionary `get_staff_list` returns: exactly these three keys. */
  datatype StaffList = StaffList(owner: seq<StaffEntry>, administrator: seq<StaffEntry>, moderator: seq<StaffEntry>)

  // ---------------------------------------------------------------- chat_members

  predicate IsRow(m: Member, userId: int, chatId: int) {
    m.userId == userId && m.chatId == chatId
  }

  /** No two rows share a (user, chat) pair. */
  ghost predicate UniqueRows(rows: seq<Member>) {
    forall i, j :: 0 <= i < j < |rows| ==> !IsRow(rows[j], rows[i].userId, rows[i].chatId)
  }

  /** The index of the first row for (user, chat): what `fetchone()` returns. */
  function FindRow(rows: seq<Member>, userId: int, chatId: int): (r: Option<nat>)
    ensures r.Some? ==> r.value < |rows| && IsRow(rows[r.value], userId, chatId)
    ensures r.Some? ==> forall j :: 0 <= j < r.value ==> !IsRow(rows[j], userId, chatId)
    ensures r.None? <==> forall j :: 0 <= j < |rows| ==> !IsRow(rows[j], userId, chatId)
  {
    if rows == [] then None
    else if IsRow(rows[0], userId, chatId) then Some(0)
    else match FindRow(rows[1..], userId, chatId)
      case None => None
      case Some(k) => Some(k + 1)
  }

  /** `SELECT rank ... WHERE user_id = ? AND chat_id = ?`, first row or None. */
  function RankOf(rows: seq<Member>, userId: int, chatId: int): Option<string> {
    match FindRow(rows, userId, chatId)
    case None => None
    case Some(i) => Some(rows[i].rank)
  }

  /** `SELECT message_count ...`, or 0 when there is no row. */
  function MessageCountOf(rows: seq<Member>, userId: int, chatId: int): int {
    match FindRow(rows, userId, chatId)
    case None => 0
    case Some(i) => rows[i].messageCount
  }

  /** `INSERT OR IGNORE`: the new row is added only when its (user, chat) pair is absent. */
  function InsertOrIgnore(rows: seq<Member>, row: Member): seq<Member> {
    if FindRow(rows, row.userId, row.chatId).Some? then rows else rows + [row]
  }

  /** `UPDATE chat_members SET rank = ? WHERE user_id = ? AND chat_id = ?`. */
  function SetRank(rows: seq<Member>, userId: int, chatId: int, rank: string): (r: seq<Member>)
    ensures |r| == |rows|
    ensures forall i :: 0 <= i < |rows| ==>
      r[i] == if IsRow(rows[i], userId, chatId) then rows[i].(rank := rank) else rows[i]
  {
    if rows == [] then []
    else
      var head := if IsRow(rows[0], userId, chatId) then rows[0].(rank := rank) else rows[0];
      [head] + SetRank(rows[1..], userId, chatId, rank)
  }

  /** `UPDATE chat_members SET message_count = message_count + 1 WHERE ...`. */
  function BumpCount(rows: seq<Member>, userId: int, chatId: int): (r: seq<Member>)
    ensures |r| == |rows|
    ensures forall i :: 0 <= i < |rows| ==>
      r[i] == if IsRow(rows[i], userId, chatId) then rows[i].(messageCount := rows[i].messageCount + 1) else rows[i]
  {
    if rows == [] then []
    else
      var head := if IsRow(rows[0], userId, chatId) then rows[0].(messageCount := rows[0].messageCount + 1) else rows[0];
      [head] + BumpCount(rows[1..], userId, chatId)
  }

  // ---------------------------------------------------------------- warnings

  /** `SELECT COUNT(*) FROM warnings WHERE user_id = ? AND chat_id = ?`. */
  function CountWarnings(ws: seq<Warning>, userId: int, chatId: int): (n: nat)
    ensures n <= |ws|
  {
    if ws == [] then 0
    else (if ws[0].userId == userId && ws[0].chatId == chatId then 1 else 0) + CountWarnings(ws[1..], userId, chatId)
  }

  // ---------------------------------------------------------------- staff

  /** A row the staff query returns: a member of the chat, not a participant, with a `users` row. */
  predicate StaffRow(m: Member, users: map<int, UserRow>, chatId: int) {
    m.chatId == chatId && m.rank != "participant" && m.userId in users
  }

  /**
   * The rows of the staff query: members of the chat, rank not
   * 'participant', joined with an existing `users` row. Rows keep table
   * order; the query's ORDER BY only orders different ranks, which the
   * grouping puts into different lists anyway.
   */
  function StaffQuery(rows: seq<Member>, users: map<int, UserRow>, chatId: int): (r: seq<Member>)
    ensures forall i :: 0 <= i < |r| ==> r[i] in rows && StaffRow(r[i], users, chatId)
    ensures forall m :: m in rows && StaffRow(m, users, chatId) ==> m in r
  {
    if rows == [] then []
    else
      var rest := StaffQuery(rows[1..], users, chatId);
      var m := rows[0];
      if StaffRow(m, users, chatId) then [m] + rest else rest
  }

  /** The staff query returns each qualifying row as often as the table holds it, and no other row. */
  lemma {:induction false} StaffQueryMultiplicity(rows: seq<Member>, users: map<int, UserRow>, chatId: int, m: Member)
    ensures multiset(StaffQuery(rows, users, chatId))[m] == if StaffRow(m, users, chatId) then multiset(rows)[m] else 0
  {
    if rows != [] {
      var rest := StaffQuery(rows[1..], users, chatId);
      StaffQueryMultiplicity(rows[1..], users, chatId, m);
      assert multiset(rows) == multiset([rows[0]]) + multiset(rows[1..]) by {
        assert rows == [rows[0]] + rows[1..];
      }
      if StaffRow(rows[0], users, chatId) {
        assert multiset(StaffQuery(rows, users, chatId)) == multiset([rows[0]]) + multiset(rest);
      } else {
        assert StaffQuery(rows, users, chatId) == rest;
      }
    }
  }

  /** The staff query keeps table order: it distributes over concatenation. */
  lemma {:induction false} StaffQueryAppend(a: seq<Member>, b: seq<Member>, users: map<int, UserRow>, chatId: int)
    ensures StaffQuery(a + b, users, chatId) == StaffQuery(a, users, chatId) + StaffQuery(b, users, chatId)
  {
    if a == [] {
      assert a + b == b;
    } else {
      assert (a + b)[1..] == a[1..] + b;
      StaffQueryAppend(a[1..], b, users, chatId);
    }
  }

  /** The selected `users` columns of a member row. */
  function EntryOf(m: Member, users: map<int, UserRow>): StaffEntry
    requires m.userId in users
  {
    StaffEntry(m.userId, users[m.userId].username, users[m.userId].firstName, users[m.userId].nickname)
  }

  /** How many entries of `list` are for user `userId`. */
  function CountEntries(list: seq<StaffEntry>, userId: int): nat {
    if list == [] then 0
    else CountEntries(list[..|list| - 1], userId) + (if list[|list| - 1].userId == userId then 1 else 0)
  }

  /** How many of `rows` are user `userId`'s with rank `rank`. */
  function CountRanked(rows: seq<Member>, userId: int, rank: string): nat {
    if rows == [] then 0
    else CountRanked(rows[..|rows| - 1], userId, rank) + (if rows[|rows| - 1].userId == userId && rows[|rows| - 1].rank == rank then 1 else 0)
  }

  /** The entries, in order, of the query rows whose rank is `rank`. */
  function Select(rows: seq<Member>, users: map<int, UserRow>, rank: string): (r: seq<StaffEntry>)
    requires forall i :: 0 <= i < |rows| ==> rows[i].userId in users
    ensures forall e :: e in r <==> exists i :: 0 <= i < |rows| && rows[i].rank == rank && e == EntryOf(rows[i], users)
    ensures forall u :: CountEntries(r, u) == CountRanked(rows, u, rank)
  {
    if rows == [] then []
    else
      var last := rows[|rows| - 1];
      var front := rows[..|rows| - 1];
      var s := Select(front, users, rank);
      assert forall i :: 0 <= i < |front| ==> front[i] == rows[i];
      if last.rank == rank then
        assert (s + [EntryOf(last, users)])[..|s|] == s;
        s + [EntryOf(last, users)]
      else
        assert s + [] == s;
        s + []
  }

  /** Selecting from one more row appends that row's entry when it has the rank. */
  lemma SelectSnoc(rows: seq<Member>, users: map<int, UserRow>, rank: string, i: int)
    requires forall k :: 0 <= k < |rows| ==> rows[k].userId in users
    requires 0 <= i < |rows|
    ensures Select(rows[..i + 1], users, rank) ==
      Select(rows[..i], users, rank) + (if rows[i].rank == rank then [EntryOf(rows[i], users)] else [])
  {
    assert rows[..i + 1][..i] == rows[..i];
  }

  // ---------------------------------------------------------------- the store

  class Database {
    var users: map<int, UserRow>
    var members: seq<Member>
    var warnings: seq<Warning>
    var messageStats: map<StatKey, int>

    /** The `UNIQUE(user_id, chat_id)` constraint of `chat_members`. */
    ghost predicate Valid()
      reads this
    {
      UniqueRows(members)
    }

    /** `init_db`: the tables exist and are empty. */
    constructor ()
      ensures Valid()
      ensures users == map[] && members == [] && warnings == [] && messageStats == map[]
    {
      users, members, warnings, messageStats := map[], [], [], map[];
    }

    /** `INSERT OR REPLACE INTO users (user_id, username, first_name, last_name)`: nickname and description become NULL. */
    method AddUser(userId: int, username: Option<string>, firstName: Option<string>, lastName: Option<string>)
      requires Valid()
      modifies this
      ensures Valid()
      ensures users == old(users)[userId := UserRow(username, firstName, lastName, None, None)]
      ensures members == old(members) && warnings == old(warnings) && messageStats == old(messageStats)
    {
      users := users[userId := UserRow(username, firstName, lastName, None, None)];
    }

    /** `INSERT OR IGNORE INTO chat_members (user_id, chat_id, rank)`. */
    method AddChatMember(userId: int, chatId: int, rank: string := "participant")
      requires Valid()
      modifies this
      ensures Valid()
      ensures members == InsertOrIgnore(old(members), Member(userId, chatId, rank, 0))
      ensures users == old(users) && warnings == old(warnings) && messageStats == old(messageStats)
    {
      InsertOrIgnoreKeepsUnique(members, Member(userId, chatId, rank, 0));
      members := InsertOrIgnore(members, Member(userId, chatId, rank, 0));
    }

    method UpdateUserRank(userId: int, chatId: int, newRank: string)
      requires Valid()
      modifies this
      ensures Valid()
      ensures members == SetRank(old(members), userId, chatId, newRank)
      ensures users == old(users) && warnings == old(warnings) && messageStats == old(messageStats)
    {
      members := SetRank(members, userId, chatId, newRank);
    }

    /** The stored rank of (user, chat), `None` exactly when there is no row. */
    method GetUserRank(userId: int, chatId: int) returns (r: Option<string>)
      ensures r.None? <==> forall i :: 0 <= i < |members| ==> !IsRow(members[i], userId, chatId)
      ensures r.Some? ==> exists i :: 0 <= i < |members| && IsRow(members[i], userId, chatId) && members[i].rank == r.value
      ensures r == RankOf(members, userId, chatId)
    {
      r := RankOf(members, userId, chatId);
    }

    /** `INSERT INTO warnings`: one more row, always. */
    method AddWarning(userId: int, chatId: int, reason: string, issuedBy: int)
      requires Valid()
      modifies this
      ensures Valid()
      ensures warnings == old(warnings) + [Warning(userId, chatId, reason, issuedBy)]
      ensures users == old(users) && members == old(members) && messageStats == old(messageStats)
    {
      warnings := warnings + [Warning(userId, chatId, reason, issuedBy)];
    }

    method GetWarningCount(userId: int, chatId: int) returns (n: nat)
      ensures n <= |warnings|
      ensures n == CountWarnings(warnings, userId, chatId)
    {
      n := CountWarnings(warnings, userId, chatId);
    }

    /** `UPDATE users SET nickname = ?`: no effect for an unknown user. */
    method SetUserNickname(userId: int, nickname: string)
      requires Valid()
      modifies this
      ensures Valid()
      ensures users == if userId in old(users) then old(users)[userId := old(users)[userId].(nickname := Some(nickname))] else old(users)
      ensures members == old(members) && warnings == old(warnings) && messageStats == old(messageStats)
    {
      if userId in users {
        users := users[userId := users[userId].(nickname := Some(nickname))];
      }
    }

    /** `UPDATE users SET description = ?`: no effect for an unknown user. */
    method SetUserDescription(userId: int, description: string)
      requires Valid()
      modifies this
      ensures Valid()
      ensures users == if userId in old(users) then old(users)[userId := old(users)[userId].(description := Some(description))] else old(users)
      ensures members == old(members) && warnings == old(warnings) && messageStats == old(messageStats)
    {
      if userId in users {
        users := users[userId := users[userId].(description := Some(description))];
      }
    }

    method GetUserInfo(userId: int) returns (r: Option<UserRow>)
      ensures r.Some? <==> userId in users
      ensures r.Some? ==> r.value == users[userId]
    {
      r := if userId in users then Some(users[userId]) else None;
    }

    /**
     * `get_staff_list`: runs the staff query, then appends each row's entry
     * to the list of its rank; a rank other than the three staff ranks is dropped.
     */
    method GetStaffList(chatId: int) returns (staff: StaffList)
      ensures var q := StaffQuery(members, users, chatId);
        staff == StaffList(Select(q, users, "owner"), Select(q, users, "administrator"), Select(q, users, "moderator"))
    {
      var results := StaffQuery(members, users, chatId);
      assert forall k :: 0 <= k < |results| ==> results[k].userId in users;
      staff := StaffList([], [], []);
      for i := 0 to |results|
        invariant staff.owner == Select(results[..i], users, "owner")
        invariant staff.administrator == Select(results[..i], users, "administrator")
        invariant staff.moderator == Select(results[..i], users, "moderator")
      {
        var row := results[i];
        var info := EntryOf(row, users);
        SelectSnoc(results, users, "owner", i);
        SelectSnoc(results, users, "administrator", i);
        SelectSnoc(results, users, "moderator", i);
        if row.rank == "owner" {
          staff := staff.(owner := staff.owner + [info]);
        } else if row.rank == "administrator" {
          staff := staff.(administrator := staff.administrator + [info]);
        } else if row.rank == "moderator" {
          staff := staff.(moderator := staff.moderator + [info]);
        }
      }
      assert results[..|results|] == results;
    }

    /**
     * `increment_message_count`: INSERT OR IGNORE a count of 1 for today,
     * then add 1 to it, then add 1 to the member's total (if it has a row).
     */
    method IncrementMessageCount(userId: int, chatId: int, today: string)
      requires Valid()
      modifies this
      ensures Valid()
      ensures var key := StatKey(userId, chatId, today);
        messageStats == old(messageStats)[key := (if key in old(messageStats) then old(messageStats)[key] else 1) + 1]
      ensures members == BumpCount(old(members), userId, chatId)
      ensures users == old(users) && warnings == old(warnings)
    {
      var key := StatKey(userId, chatId, today);
      if key !in messageStats {
        messageStats := messageStats[key := 1];
      }
      messageStats := messageStats[key := messageStats[key] + 1];
      BumpCountKeepsUnique(members, userId, chatId);
      members := BumpCount(members, userId, chatId);
    }

    method GetUserMessageCount(userId: int, chatId: int) returns (n: int)
      ensures FindRow(members, userId, chatId).None? ==> n == 0
      ensures n == MessageCountOf(members, userId, chatId)
    {
      n := MessageCountOf(members, userId, chatId);
    }

    /**
     * `find_user_by_username`: every leading '@' is stripped, then the first
     * member row of the chat whose user has exactly that username.
     */
    method FindUserByUsername(username: string, chatId: int) returns (r: Option<int>)
      ensures var clean := PyText.LStripChar(username, '@');
        r == FirstWithUsername(members, users, clean, chatId)
      ensures r.Some? ==> r.value in users && users[r.value].username == Some(PyText.LStripChar(username, '@'))
    {
      r := FirstWithUsername(members, users, PyText.LStripChar(username, '@'), chatId);
    }
  }

  /** The user of the first member row of `chatId` whose `users` row has username `name`. */
  function FirstWithUsername(rows: seq<Member>, users: map<int, UserRow>, name: string, chatId: int): (r: Option<int>)
    ensures r.Some? ==> r.value in users && users[r.value].username == Some(name)
    ensures r.Some? ==> exists i :: 0 <= i < |rows| && rows[i].userId == r.value && rows[i].chatId == chatId
    ensures r.None? <==> forall i :: 0 <= i < |rows| && rows[i].chatId == chatId && rows[i].userId in users ==>
      users[rows[i].userId].username != Some(name)
  {
    if rows == [] then None
    else
      var m := rows[0];
      if m.chatId == chatId && m.userId in users && users[m.userId].username == Some(name) then Some(m.userId)
      else
        var r := FirstWithUsername(rows[1..], users, name, chatId);
        assert forall i :: 1 <= i < |rows| ==> rows[i] == rows[1..][i - 1];
        r
  }

  // ---------------------------------------------------------------- lemmas

  lemma InsertOrIgnoreKeepsUnique(rows: seq<Member>, row: Member)
    requires UniqueRows(rows)
    ensures UniqueRows(InsertOrIgnore(rows, row))
  {
  }

  lemma BumpCountKeepsUnique(rows: seq<Member>, userId: int, chatId: int)
    requires UniqueRows(rows)
    ensures UniqueRows(BumpCount(rows, userId, chatId))
  {
  }

  lemma SetRankKeepsUnique(rows: seq<Member>, userId: int, chatId: int, rank: string)
    requires UniqueRows(rows)
    ensures UniqueRows(SetRank(rows, userId, chatId, rank))
  {
  }

  /** The first matching row of `rows + [row]` is that of `rows`, else the new row. */
  lemma {:induction false} FindRowAppend(rows: seq<Member>, row: Member, userId: int, chatId: int)
    ensures FindRow(rows + [row], userId, chatId) ==
      if FindRow(rows, userId, chatId).Some? then FindRow(rows, userId, chatId)
      else if IsRow(row, userId, chatId) then Some(|rows|) else None
  {
    if rows != [] {
      assert (rows + [row])[1..] == rows[1..] + [row];
      FindRowAppend(rows[1..], row, userId, chatId);
    }
  }

  /**
   * `add_chat_member` never changes the rank of an existing (user, chat)
   * row; a new pair gets the given rank; every other pair is unaffected.
   */
  lemma AddChatMemberRank(rows: seq<Member>, userId: int, chatId: int, rank: string, u: int, c: int)
    ensures RankOf(InsertOrIgnore(rows, Member(userId, chatId, rank, 0)), u, c) ==
      if u == userId && c == chatId && RankOf(rows, u, c).None? then Some(rank) else RankOf(rows, u, c)
  {
    var row := Member(userId, chatId, rank, 0);
    if FindRow(rows, userId, chatId).None? {
      FindRowAppend(rows, row, u, c);
      var r' := rows + [row];
      assert forall i :: 0 <= i < |rows| ==> r'[i] == rows[i];
    }
  }

  /** The first matching row is the same one after a rank update. */
  lemma {:induction false} FindRowSetRank(rows: seq<Member>, userId: int, chatId: int, rank: string, u: int, c: int)
    ensures FindRow(SetRank(rows, userId, chatId, rank), u, c) == FindRow(rows, u, c)
  {
    if rows != [] {
      assert SetRank(rows, userId, chatId, rank)[1..] == SetRank(rows[1..], userId, chatId, rank);
      FindRowSetRank(rows[1..], userId, chatId, rank, u, c);
    }
  }

  /**
   * `update_user_rank` sets the rank of the matching (user, chat) row, is a
   * no-op when that row is absent, and leaves every other pair's rank.
   */
  lemma UpdateUserRankEffect(rows: seq<Member>, userId: int, chatId: int, rank: string, u: int, c: int)
    ensures RankOf(SetRank(rows, userId, chatId, rank), u, c) ==
      if u == userId && c == chatId && RankOf(rows, u, c).Some? then Some(rank) else RankOf(rows, u, c)
  {
    FindRowSetRank(rows, userId, chatId, rank, u, c);
  }

  lemma {:induction false} FindRowBumpCount(rows: seq<Member>, userId: int, chatId: int, u: int, c: int)
    ensures FindRow(BumpCount(rows, userId, chatId), u, c) == FindRow(rows, u, c)
  {
    if rows != [] {
      assert BumpCount(rows, userId, chatId)[1..] == BumpCount(rows[1..], userId, chatId);
      FindRowBumpCount(rows[1..], userId, chatId, u, c);
    }
  }

  /**
   * The member total read back by `get_user_message_count` grows by one
   * exactly when the member row exists; ranks and other pairs are unchanged.
   */
  lemma IncrementMessageCountEffect(rows: seq<Member>, userId: int, chatId: int, u: int, c: int)
    ensures MessageCountOf(BumpCount(rows, userId, chatId), u, c) ==
      MessageCountOf(rows, u, c) + (if u == userId && c == chatId && FindRow(rows, u, c).Some? then 1 else 0)
    ensures RankOf(BumpCount(rows, userId, chatId), u, c) == RankOf(rows, u, c)
  {
    FindRowBumpCount(rows, userId, chatId, u, c);
  }

  /** `add_warning` raises the count of its own pair by exactly one and of no other pair. */
  lemma {:induction false} AddWarningCount(ws: seq<Warning>, w: Warning, u: int, c: int)
    ensures CountWarnings(ws + [w], u, c) == CountWarnings(ws, u, c) + (if w.userId == u && w.chatId == c then 1 else 0)
  {
    if ws != [] {
      assert (ws + [w])[1..] == ws[1..] + [w];
      AddWarningCount(ws[1..], w, u, c);
    }
  }

  /**
   * The staff list holds exactly the chat's members of each staff rank that
   * have a `users` row: so no participant and no unrecognised rank appears,
   * and each member is listed under its own rank.
   */
  lemma StaffListExact(rows: seq<Member>, users: map<int, UserRow>, chatId: int, rank: string, e: StaffEntry)
    requires rank in {"owner", "administrator", "moderator"}
    ensures e in Select(StaffQuery(rows, users, chatId), users, rank) <==>
      exists i :: 0 <= i < |rows| && rows[i].chatId == chatId && rows[i].rank == rank && rows[i].userId in users
        && e == EntryOf(rows[i], users)
  {
    var q := StaffQuery(rows, users, chatId);
    if e in Select(q, users, rank) {
      var k :| 0 <= k < |q| && q[k].rank == rank && e == EntryOf(q[k], users);
      var i :| 0 <= i < |rows| && rows[i] == q[k];
    }
    if exists i :: 0 <= i < |rows| && rows[i].chatId == chatId && rows[i].rank == rank && rows[i].userId in users
        && e == EntryOf(rows[i], users) {
      var i :| 0 <= i < |rows| && rows[i].chatId == chatId && rows[i].rank == rank && rows[i].userId in users
        && e == EntryOf(rows[i], users);
      assert rows[i] in q;
    }
  }

  /**
   * With the `UNIQUE(user_id, chat_id)` constraint, each member of a staff
   * rank who has a `users` row is listed exactly once under that rank, and
   * nobody else is listed there at all.
   */
  lemma StaffListOnce(rows: seq<Member>, users: map<int, UserRow>, chatId: int, rank: string, u: int)
    requires UniqueRows(rows)
    ensures CountEntries(Select(StaffQuery(rows, users, chatId), users, rank), u) ==
      if exists i :: 0 <= i < |rows| && rows[i].userId == u && rows[i].rank == rank && StaffRow(rows[i], users, chatId) then 1 else 0
  {
    var q := StaffQuery(rows, users, chatId);
    StaffQueryUnique(rows, users, chatId);
    CountRankedUnique(q, chatId, u, rank);
    if exists k :: 0 <= k < |q| && q[k].userId == u && q[k].rank == rank {
      var k :| 0 <= k < |q| && q[k].userId == u && q[k].rank == rank;
      var i :| 0 <= i < |rows| && rows[i] == q[k];
    }
    if exists i :: 0 <= i < |rows| && rows[i].userId == u && rows[i].rank == rank && StaffRow(rows[i], users, chatId) {
      var i :| 0 <= i < |rows| && rows[i].userId == u && rows[i].rank == rank && StaffRow(rows[i], users, chatId);
      assert rows[i] in q;
    }
  }

  /** The staff query of rows with unique pairs has unique pairs. */
  lemma {:induction false} StaffQueryUnique(rows: seq<Member>, users: map<int, UserRow>, chatId: int)
    requires UniqueRows(rows)
    ensures UniqueRows(StaffQuery(rows, users, chatId))
  {
    if rows != [] {
      var rest := StaffQuery(rows[1..], users, chatId);
      assert UniqueRows(rows[1..]) by {
        assert forall i :: 0 <= i < |rows| - 1 ==> rows[1..][i] == rows[i + 1];
      }
      StaffQueryUnique(rows[1..], users, chatId);
      var m := rows[0];
      if StaffRow(m, users, chatId) {
        forall j | 0 <= j < |rest|
          ensures !IsRow(rest[j], m.userId, m.chatId)
        {
          var k :| 0 <= k < |rows[1..]| && rows[1..][k] == rest[j];
          assert rows[k + 1] == rest[j];
        }
        var r := [m] + rest;
        assert forall i :: 0 < i < |r| ==> r[i] == rest[i - 1];
      }
    }
  }

  /** In rows of one chat with unique pairs, a user holds a given rank in at most one row. */
  lemma {:induction false} CountRankedUnique(q: seq<Member>, chatId: int, u: int, rank: string)
    requires UniqueRows(q)
    requires forall i :: 0 <= i < |q| ==> q[i].chatId == chatId
    ensures CountRanked(q, u, rank) == if exists i :: 0 <= i < |q| && q[i].userId == u && q[i].rank == rank then 1 else 0
  {
    if q != [] {
      var front := q[..|q| - 1];
      var last := q[|q| - 1];
      assert forall i :: 0 <= i < |front| ==> front[i] == q[i];
      CountRankedUnique(front, chatId, u, rank);
      if last.userId == u && last.rank == rank {
        assert forall i :: 0 <= i < |front| ==> front[i].userId != u by {
          forall i | 0 <= i < |front|
            ensures front[i].userId != u
          {
            assert !IsRow(q[|q| - 1], q[i].userId, q[i].chatId);
          }
        }
      }
    }
  }

  /** Selecting keeps order: it distributes over concatenation. */
  lemma {:induction false} SelectAppend(a: seq<Member>, b: seq<Member>, users: map<int, UserRow>, rank: string)
    requires forall i :: 0 <= i < |a| ==> a[i].userId in users
    requires forall i :: 0 <= i < |b| ==> b[i].userId in users
    ensures forall i :: 0 <= i < |a + b| ==> (a + b)[i].userId in users
    ensures Select(a + b, users, rank) == Select(a, users, rank) + Select(b, users, rank)
    decreases |b|
  {
    assert forall i :: 0 <= i < |a + b| ==> (a + b)[i] == if i < |a| then a[i] else b[i - |a|];
    if b == [] {
      assert a + b == a;
    } else {
      var front := b[..|b| - 1];
      assert (a + b)[..|a + b| - 1] == a + front;
      assert forall i :: 0 <= i < |front| ==> front[i] == b[i];
      SelectAppend(a, front, users, rank);
    }
  }

  /** `find_user_by_username` ignores any number of leading '@'. */
  lemma UsernameIgnoresAt(name: string)
    ensures PyText.LStripChar("@" + name, '@') == PyText.LStripChar(name, '@')
  {
    assert ("@" + name)[1..] == name;
  }
}

=== FILE: keyboards.dfy ===
/**
 * The keyboards the bot attaches to its replies, reduced to what the
 * handlers depend on: the texts of the private-chat menu buttons and the
 * callback data of the confirmation button.
 */
module Keyboards {
  import opened Wrappers
  import PyText

  const MyChatsButton: string := "💬 Мои чаты"
  const CommandsButton: string := "📋 Команды"

  /** `get_menu_buttons_keyboard`: the button texts, one per row. */
  function MenuButtons(): (buttons: seq<string>)
    ensures |buttons| == 2
  {
    [MyChatsButton, CommandsButton]
  }

  /** The callback data of `get_confirmation_keyboard`: `confirm_{action}_{target_user_id}`. */
  function ConfirmationData(action: string, targetUserId: int): string {
    "confirm_" + action + "_" + PyText.IntToString(targetUserId)
  }

  /** The prefix the owner-transfer confirmation handler is registered for. */
  const PromoteOwnerPrefix: string := "confirm_promote_owner_"

  /** `int(data.split("_")[-1])`, as the confirmation handler decodes the target id. */
  function DecodeTarget(data: string): Option<int> {
    PyText.ParseInt(PyText.Last(PyText.SplitOn(data, '_')))
  }

  /** The data of a "promote_owner" confirmation is routed to the confirmation handler. */
  lemma PromoteOwnerDataRouted(targetUserId: int)
    ensures ConfirmationData("promote_owner", targetUserId) == PromoteOwnerPrefix + PyText.IntToString(targetUserId)
    ensures PyText.StartsWith(ConfirmationData("promote_owner", targetUserId), PromoteOwnerPrefix)
  {
    PromoteOwnerPrefixSpelled();
    PrefixOfConcat(PromoteOwnerPrefix, PyText.IntToString(targetUserId));
  }

  /** A proof step for PromoteOwnerDataRouted: the literal prefix, spelled out. */
  lemma PromoteOwnerPrefixSpelled()
    ensures "confirm_" + "promote_owner" + "_" == PromoteOwnerPrefix
  {
  }

  lemma PrefixOfConcat(p: string, q: string)
    ensures PyText.StartsWith(p + q, p)
  {
    assert (p + q)[..|p|] == p;
  }

  /** Decoding the callback data gives back the target id, for every action and id. */
  lemma {:induction false} ConfirmationRoundTrip(action: string, targetUserId: int)
    ensures DecodeTarget(ConfirmationData(action, targetUserId)) == Some(targetUserId)
  {
    var digits := PyText.IntToString(targetUserId);
    PyText.IntToStringChars(targetUserId);
    assert ConfirmationData(action, targetUserId) == ("confirm_" + action) + ['_'] + digits;
    PyText.LastPartAfterSeparator("confirm_" + action, '_', digits);
    PyText.IntRoundTrip(targetUserId);
  }
}

=== FILE: main_handlers.dfy ===
/**
 * Which private-chat handler a plain text message reaches: the "My chats"
 * and "Commands" handlers are registered on exact text matches.
 */
module MainHandlers {
  import Keyboards

  datatype MenuAction = MyChats | Help | Unhandled

  /** The handlers registered with `F.text == ...`. */
  function Dispatch(text: string): MenuAction {
    if text == "💬 Мои чаты" then MyChats
    else if text == "📋 Команды" then Help
    else Unhandled
  }

  /** The two menu buttons reach the two menu handlers, one each, in button order. */
  lemma MenuButtonsDispatch()
    ensures Dispatch(Keyboards.MenuButtons()[0]) == MyChats
    ensures Dispatch(Keyboards.MenuButtons()[1]) == Help
    ensures forall text :: Dispatch(text) != Unhandled ==> text in Keyboards.MenuButtons()
  {
  }
}

=== FILE: moderation_handlers.dfy ===
/**
 * The moderation commands: the moderator rate limiter, target extraction,
 * the `/upstaff` promotion rule with its owner-transfer confirmation, and
 * the `/ban`, `/warn`, `/kick` and `/staff` handlers. Reply texts are
 * reduced to outcome values; the platform's ban and unban calls are
 * inputs saying whether they succeed.
 */
module ModerationHandlers {
  import opened Wrappers
  import PyText
  import Config
  import Platform
  import Database
  import Keyboards

  // ================================================================ rate limiting

  /** The rate-limit key `f"{user_id}_{command}"`. */
  function LimitKey(userId: int, command: string): string {
    PyText.IntToString(userId) + "_" + command
  }

  /** The ranks `check_rate_limit` lets through without looking at the map. */
  predicate Exempt(rank: string) {
    rank == "administrator" || rank == "owner"
  }

  /** Whether `check_rate_limit` passes for the stored map `lastUsed` at time `now` (seconds). */
  predicate RateAllows(lastUsed: map<string, int>, userId: int, command: string, rank: string, now: int) {
    var key := LimitKey(userId, command);
    if Exempt(rank) || key !in lastUsed then true
    else if command == "warn" && rank == "moderator" then now - lastUsed[key] >= Config.RateLimits["warn_moderator"]
    else if command == "kick" && rank == "moderator" then now - lastUsed[key] >= Config.RateLimits["kick_moderator"]
    else true
  }

  /** The map after `check_rate_limit`: a pass by a non-exempt rank records `now`. */
  function Recorded(lastUsed: map<string, int>, userId: int, command: string, rank: string, now: int): map<string, int> {
    if !Exempt(rank) && RateAllows(lastUsed, userId, command, rank, now)
    then lastUsed[LimitKey(userId, command) := now]
    else lastUsed
  }

  /** The process-wide map `rate_limits`, with the clock passed in as `now`. */
  class RateLimiter {
    var lastUsed: map<string, int>

    constructor ()
      ensures lastUsed == map[]
    {
      lastUsed := map[];
    }

    method CheckRateLimit(userId: int, command: string, rank: string, now: int) returns (allowed: bool)
      modifies this
      ensures allowed == RateAllows(old(lastUsed), userId, command, rank, now)
      ensures lastUsed == Recorded(old(lastUsed), userId, command, rank, now)
    {
      if rank == "administrator" || rank == "owner" {
        return true;
      }
      var key := LimitKey(userId, command);
      if key in lastUsed {
        var last := lastUsed[key];
        if command == "warn" && rank == "moderator" {
          if now - last < Config.RateLimits["warn_moderator"] {
            return false;
          }
        } else if command == "kick" && rank == "moderator" {
          if now - last < Config.RateLimits["kick_moderator"] {
            return false;
          }
        }
      }
      lastUsed := lastUsed[key := now];
      return true;
    }
  }

  /** Administrators and owners always pass, and the map is left untouched. */
  lemma ExemptRanksPass(m: map<string, int>, userId: int, command: string, rank: string, now: int)
    requires Exempt(rank)
    ensures RateAllows(m, userId, command, rank, now)
    ensures Recorded(m, userId, command, rank, now) == m
  {
  }

  /**
   * A moderator repeating `warn` within 3600 s, or `kick` within 900 s, of
   * the recorded use is refused and the record is kept; at or after the
   * window the call passes and the record becomes `now`.
   */
  lemma ModeratorCooldowns(m: map<string, int>, userId: int, command: string, now: int)
    requires command == "warn" || command == "kick"
    requires LimitKey(userId, command) in m
    ensures var window := if command == "warn" then 3600 else 900;
      var elapsed := now - m[LimitKey(userId, command)];
      && (elapsed < window ==> !RateAllows(m, userId, command, "moderator", now) && Recorded(m, userId, command, "moderator", now) == m)
      && (elapsed >= window ==>
            RateAllows(m, userId, command, "moderator", now)
            && Recorded(m, userId, command, "moderator", now) == m[LimitKey(userId, command) := now])
  {
    Config.CooldownsModeratorOnly();
  }

  /** The first use of a command by a user always passes, and records the time unless the rank is exempt. */
  lemma FirstUsePasses(m: map<string, int>, userId: int, command: string, rank: string, now: int)
    requires LimitKey(userId, command) !in m
    ensures RateAllows(m, userId, command, rank, now)
    ensures Recorded(m, userId, command, rank, now) == if Exempt(rank) then m else m[LimitKey(userId, command) := now]
  {
  }

  /** Distinct (user, command) pairs of the throttled commands have distinct keys. */
  lemma LimitKeyInjective(u1: int, c1: string, u2: int, c2: string)
    requires c1 in {"warn", "kick"} && c2 in {"warn", "kick"}
    requires LimitKey(u1, c1) == LimitKey(u2, c2)
    ensures u1 == u2 && c1 == c2
  {
    var s1, s2 := PyText.IntToString(u1), PyText.IntToString(u2);
    var k := LimitKey(u1, c1);
    assert |s1| == |s2|;
    assert k[..|s1|] == s1;
    assert LimitKey(u2, c2)[..|s2|] == s2;
    assert k[|s1| + 1..] == c1;
    assert LimitKey(u2, c2)[|s2| + 1..] == c2;
    PyText.IntRoundTrip(u1);
    PyText.IntRoundTrip(u2);
  }

  /**
   * The `warn` and `kick` windows are independent, as are different users':
   * a check on one (user, command) pair does not change whether another passes.
   */
  lemma WindowsIndependent(m: map<string, int>, u: int, c: string, r: string, now: int,
                           u': int, c': string, r': string, now': int)
    requires c in {"warn", "kick"} && c' in {"warn", "kick"}
    requires u != u' || c != c'
    ensures RateAllows(Recorded(m, u, c, r, now), u', c', r', now') == RateAllows(m, u', c', r', now')
  {
    if LimitKey(u, c) == LimitKey(u', c') {
      LimitKeyInjective(u, c, u', c');
    }
  }

  // ================================================================ targets

  /** A target user id and the name to show for it. */
  datatype Target = Target(id: int, name: string)

  /**
   * How a command word names a user: `@name` gives id 0 (usernames are not
   * resolved), a digit string gives its value, anything else (0, "").
   */
  function WordTarget(w: string): (t: Target)
    ensures PyText.StartsWith(w, "@") ==> t == Target(0, w)
    ensures !PyText.StartsWith(w, "@") && PyText.IsDigitString(w) ==> t == Target(PyText.DigitsValue(w), w)
    ensures !PyText.StartsWith(w, "@") && !PyText.IsDigitString(w) ==> t == Target(0, "")
  {
    if PyText.StartsWith(w, "@") then Target(0, w)
    else if PyText.IsDigitString(w) then
      var v := PyText.ParseInt(w);
      PyText.ParseDigitString(w);
      Target(v.value, w)
    else Target(0, "")
  }

  /**
   * `get_target_user`: the replied-to user if any, otherwise the third
   * whitespace-separated word of the text, otherwise (0, "").
   */
  function GetTargetUser(replied: Option<Platform.User>, text: string): (t: Target)
    ensures replied.Some? ==> t == Target(replied.value.id, Platform.FallbackName(replied.value))
    ensures replied.None? && |PyText.Split(text)| <= 2 ==> t == Target(0, "")
    ensures replied.None? && |PyText.Split(text)| > 2 ==> t == WordTarget(PyText.Split(text)[2])
  {
    if replied.Some? then
      var user := replied.value;
      Target(user.id, Platform.FallbackName(user))
    else
      var all := PyText.Split(text);
      var words := if |all| > 2 then all[2..] else [];
      if words != [] then WordTarget(words[0]) else Target(0, "")
  }

  /** Without a reply, `<command> <step> <id>` names the user with that id. */
  lemma TargetById(command: string, step: string, id: nat)
    requires PyText.IsWord(command) && PyText.IsWord(step)
    ensures var digits := PyText.NatToString(id);
      GetTargetUser(None, command + " " + step + " " + digits) == Target(id, digits)
  {
    var digits := PyText.NatToString(id);
    PyText.DigitsAreWord(digits);
    PyText.SplitWord(digits);
    PyText.SplitWords(step, digits);
    assert command + " " + step + " " + digits == command + " " + (step + " " + digits);
    PyText.SplitWords(command, step + " " + digits);
    PyText.NatToStringValue(id);
  }

  /**
   * The word read is always the third, also for `/ban`, `/warn` and `/kick`,
   * whose second word is the target and third the reason: without a reply,
   * `/ban 12345 spam` names no one, and `/ban x 12345` names user 12345.
   */
  lemma TargetIsThirdWord(command: string, first: string, second: string)
    requires PyText.IsWord(command) && PyText.IsWord(first) && PyText.IsWord(second)
    ensures GetTargetUser(None, command + " " + first + " " + second) == WordTarget(second)
  {
    PyText.SplitWord(second);
    PyText.SplitWords(first, second);
    assert command + " " + first + " " + second == command + " " + (first + " " + second);
    PyText.SplitWords(command, first + " " + second);
  }

  lemma BanByIdNamesNoOne()
    ensures GetTargetUser(None, "/ban 12345 spam") == Target(0, "")
  {
    BanWords();
    TargetIsThirdWord("/ban", "12345", "spam");
    BanByIdSpelled();
    SpamIsNoTarget();
  }

  lemma BanReasonTakenAsId()
    ensures GetTargetUser(None, "/ban x 12345") == Target(12345, "12345")
  {
    BanWords();
    TargetIsThirdWord("/ban", "x", "12345");
    BanReasonSpelled();
    IdWordTarget();
  }

  // Proof steps for BanByIdNamesNoOne and BanReasonTakenAsId: each fixes one
  // fact about the literal strings, so that those two lemmas stay cheap.

  lemma BanWords()
    ensures PyText.IsWord("/ban") && PyText.IsWord("x") && PyText.IsWord("12345") && PyText.IsWord("spam")
  {
  }

  lemma BanByIdSpelled()
    ensures "/ban" + " " + "12345" + " " + "spam" == "/ban 12345 spam"
  {
  }

  lemma BanReasonSpelled()
    ensures "/ban" + " " + "x" + " " + "12345" == "/ban x 12345"
  {
  }

  lemma SpamIsNoTarget()
    ensures WordTarget("spam") == Target(0, "")
  {
    assert !PyText.IsAsciiDigit("spam"[0]);
  }

  lemma IdWordTarget()
    ensures WordTarget("12345") == Target(12345, "12345")
  {
    assert PyText.IsDigitString("12345");
    assert !PyText.StartsWith("12345", "@") by { assert "12345"[..1] == "1"; }
    DigitsOf12345();
  }

  lemma DigitsOf12345()
    ensures PyText.DigitsValue("12345") == 12345
  {
    assert PyText.DigitsValue("1") == 1 by { assert "1"[..0] == ""; }
    assert PyText.DigitsValue("12") == 12 by { assert "12"[..1] == "1"; }
    assert PyText.DigitsValue("123") == 123 by { assert "123"[..2] == "12"; }
    assert PyText.DigitsValue("1234") == 1234 by { assert "1234"[..3] == "123"; }
    assert "12345"[..4] == "1234";
  }

  // ================================================================ promotion

  function Min(a: int, b: int): int {
    if a <= b then a else b
  }

  /** What `/upstaff` does once both ranks are known. */
  datatype Decision =
    | UnknownRank          // the target's stored rank is not a key of RANKS (KeyError)
    | NoNewRank            // no rank has the new level, or it is the current one
    | OwnerProtected       // an administrator acting on an owner
    | NeedsConfirmation    // an owner raising someone to owner
    | Apply(newRank: string)

  /**
   * The decision of `upstaff_command` for an actor of rank `actorRank`
   * raising a target of rank `targetRank` by `delta` levels. The new level is
   * `min(level + delta, 3)`; a negative `delta` demotes.
   */
  function PromotionDecision(actorRank: string, targetRank: string, delta: int): (d: Decision)
    ensures d == UnknownRank <==> targetRank !in Config.Ranks
    ensures targetRank in Config.Ranks ==>
      var current := Config.Ranks[targetRank];
      var level := Min(current + delta, Config.MaxLevel);
      var changes := 0 <= level && level != current;
      && (d == NoNewRank <==> !changes)
      && (d == OwnerProtected <==> changes && actorRank == "administrator" && targetRank == "owner")
      && (d == NeedsConfirmation <==> changes && !(actorRank == "administrator" && targetRank == "owner")
                                      && level == Config.MaxLevel && actorRank == "owner")
      && (d.Apply? <==> changes && !(actorRank == "administrator" && targetRank == "owner")
                         && !(level == Config.MaxLevel && actorRank == "owner"))
      && (d.Apply? ==> d.newRank in Config.Ranks && Config.Ranks[d.newRank] == level)
  {
    if targetRank !in Config.Ranks then UnknownRank
    else
      var current := Config.Ranks[targetRank];
      var level := Min(current + delta, Config.MaxLevel);
      var newRank := Config.RankAtLevel(level);
      Config.RanksAreFourOrderedLevels();
      if newRank.None? || newRank.value == targetRank then NoNewRank
      else if actorRank == "administrator" && targetRank == "owner" then OwnerProtected
      else if newRank.value == "owner" && actorRank == "owner" then NeedsConfirmation
      else Apply(newRank.value)
  }

  /** A zero step never changes a rank. */
  lemma ZeroStepIsRejected(actorRank: string, targetRank: string)
    requires targetRank in Config.Ranks
    ensures PromotionDecision(actorRank, targetRank, 0) == NoNewRank
  {
  }

  /** An administrator can never change an owner's rank, whatever the step. */
  lemma AdministratorNeverMovesOwner(delta: int)
    ensures PromotionDecision("administrator", "owner", delta) in {NoNewRank, OwnerProtected}
  {
  }

  /** The level is capped at owner: an owner raising an administrator by 10 must confirm a transfer. */
  lemma PromotionCappedAtOwner()
    ensures PromotionDecision("owner", "administrator", 10) == NeedsConfirmation
  {
  }

  /**
   * As written, an administrator who raises a non-owner to the owner level
   * makes that user an owner at once, without any confirmation.
   */
  lemma AdministratorCreatesOwnerDirectly(targetRank: string, delta: int)
    requires targetRank in {"participant", "moderator", "administrator"}
    requires Config.Ranks[targetRank] + delta >= Config.MaxLevel
    ensures PromotionDecision("administrator", targetRank, delta) == Apply("owner")
  {
  }

  /** A negative step demotes, down to participant; below that the command is rejected. */
  lemma NegativeStepDemotes(actorRank: string, targetRank: string, delta: int)
    requires targetRank in Config.Ranks && delta < 0
    requires !(actorRank == "administrator" && targetRank == "owner")
    ensures Config.Ranks[targetRank] + delta >= 0 ==>
      PromotionDecision(actorRank, targetRank, delta).Apply?
      && Config.Ranks[PromotionDecision(actorRank, targetRank, delta).newRank] == Config.Ranks[targetRank] + delta
    ensures Config.Ranks[targetRank] + delta < 0 ==> PromotionDecision(actorRank, targetRank, delta) == NoNewRank
  {
  }

  // ================================================================ /upstaff

  /** The early exits the moderation handlers share, each with its own reply. */
  datatype Refusal =
    | GroupOnly       // private chat, or no sender
    | RankTooLow      // the sender's stored rank is not allowed the command
    | RateLimited     // a moderator inside the cooldown
    | Usage           // too few words
    | BadNumber       // the step of /upstaff is not an integer
    | NoTarget        // no replied-to user and no numeric id

  datatype UpstaffOutcome =
    | Refused(why: Refusal)
    | TargetNotInChat
    | UnknownTargetRank
    | CannotPromote
    | AdminOnOwner
    | ConfirmationSent(targetId: int, callbackData: string)
    | Promoted(targetId: int, newRank: string)

  /** The rank of the message's sender in the message's chat. */
  function ActorRank(rows: seq<Database.Member>, msg: Platform.Message): Option<string>
    requires msg.fromUser.Some?
  {
    Database.RankOf(rows, msg.fromUser.value.id, msg.chatId)
  }

  /** The outcome of `upstaff_command` for a message, over the `chat_members` rows it reads. */
  function Upstaff(rows: seq<Database.Member>, msg: Platform.Message): UpstaffOutcome {
    if !Platform.InGroup(msg) then Refused(GroupOnly)
    else if !Config.Permitted(ActorRank(rows, msg), "upstaff") then Refused(RankTooLow)
    else
      var text := Platform.TextOf(msg);
      var parts := PyText.Split(text);
      if |parts| < 3 then Refused(Usage)
      else match PyText.ParseInt(parts[1])
        case None => Refused(BadNumber)
        case Some(delta) =>
          Resolve(rows, msg.chatId, ActorRank(rows, msg).value, delta, GetTargetUser(Platform.RepliedUser(msg), text))
  }

  /** The second half of `upstaff_command`: the target's stored rank, then the decision. */
  function Resolve(rows: seq<Database.Member>, chatId: int, actorRank: string, delta: int, target: Target): UpstaffOutcome {
    if target.id == 0 then Refused(NoTarget)
    else
      var targetRank := Database.RankOf(rows, target.id, chatId);
      if targetRank.None? || targetRank.value == "" then TargetNotInChat
      else match PromotionDecision(actorRank, targetRank.value, delta)
        case UnknownRank => UnknownTargetRank
        case NoNewRank => CannotPromote
        case OwnerProtected => AdminOnOwner
        case NeedsConfirmation => ConfirmationSent(target.id, Keyboards.ConfirmationData("promote_owner", target.id))
        case Apply(r) => Promoted(target.id, r)
  }

  /** `upstaff_command`: only a `Promoted` outcome writes, and it writes the target's rank. */
  method UpstaffCommand(db: Database.Database, msg: Platform.Message) returns (o: UpstaffOutcome)
    requires db.Valid()
    modifies db
    ensures db.Valid()
    ensures o == Upstaff(old(db.members), msg)
    ensures db.members == if o.Promoted? then Database.SetRank(old(db.members), o.targetId, msg.chatId, o.newRank) else old(db.members)
    ensures db.users == old(db.users) && db.warnings == old(db.warnings) && db.messageStats == old(db.messageStats)
  {
    if !(msg.fromUser.Some? && msg.chatType != "private") {
      return Refused(GroupOnly);
    }
    var user := msg.fromUser.value;
    var userRank := db.GetUserRank(user.id, msg.chatId);
    if !Config.Permitted(userRank, "upstaff") {
      return Refused(RankTooLow);
    }
    var text := Platform.TextOf(msg);
    var parts := PyText.Split(text);
    if |parts| < 3 {
      return Refused(Usage);
    }
    var rankIncrease := PyText.ParseInt(parts[1]);
    if rankIncrease.None? {
      return Refused(BadNumber);
    }
    var target := GetTargetUser(Platform.RepliedUser(msg), text);
    if target.id == 0 {
      return Refused(NoTarget);
    }
    var targetRank := db.GetUserRank(target.id, msg.chatId);
    if targetRank.None? || targetRank.value == "" {
      return TargetNotInChat;
    }
    match PromotionDecision(userRank.value, targetRank.value, rankIncrease.value)
    case UnknownRank => o := UnknownTargetRank;
    case NoNewRank => o := CannotPromote;
    case OwnerProtected => o := AdminOnOwner;
    case NeedsConfirmation =>
      o := ConfirmationSent(target.id, Keyboards.ConfirmationData("promote_owner", target.id));
    case Apply(newRank) =>
      db.UpdateUserRank(target.id, msg.chatId, newRank);
      o := Promoted(target.id, newRank);
  }

  /** Without a stored rank in the allow-list, `/upstaff` writes nothing and asks nothing. */
  lemma UpstaffNeedsPermission(rows: seq<Database.Member>, msg: Platform.Message)
    requires Platform.InGroup(msg) && !Config.Permitted(ActorRank(rows, msg), "upstaff")
    ensures Upstaff(rows, msg) == Refused(RankTooLow)
  {
  }

  /**
   * The parsed form of an `/upstaff` message that got past the permission
   * and usage checks: the actor's rank, the step and the target.
   */
  predicate Parsed(rows: seq<Database.Member>, msg: Platform.Message, actorRank: string, delta: int, target: Target) {
    var text := Platform.TextOf(msg);
    var parts := PyText.Split(text);
    && Platform.InGroup(msg)
    && ActorRank(rows, msg) == Some(actorRank)
    && Config.Permitted(Some(actorRank), "upstaff")
    && |parts| >= 3 && PyText.ParseInt(parts[1]) == Some(delta)
    && target == GetTargetUser(Platform.RepliedUser(msg), text)
  }

  /** Every outcome past the usage checks comes from `Resolve` on the parsed message. */
  lemma UpstaffParsed(rows: seq<Database.Member>, msg: Platform.Message)
    requires Upstaff(rows, msg).TargetNotInChat? || Upstaff(rows, msg).UnknownTargetRank? || Upstaff(rows, msg).CannotPromote?
          || Upstaff(rows, msg).AdminOnOwner? || Upstaff(rows, msg).ConfirmationSent? || Upstaff(rows, msg).Promoted?
    ensures exists actorRank, delta, target :: Parsed(rows, msg, actorRank, delta, target)
              && Upstaff(rows, msg) == Resolve(rows, msg.chatId, actorRank, delta, target)
  {
    var text := Platform.TextOf(msg);
    var parts := PyText.Split(text);
    var delta := PyText.ParseInt(parts[1]).value;
    var target := GetTargetUser(Platform.RepliedUser(msg), text);
    assert Parsed(rows, msg, ActorRank(rows, msg).value, delta, target);
  }

  /**
   * A promotion by a permitted actor (every parsed message has one, by
   * `UpstaffParsed`) sets the target to the rank at `min(level + delta, 3)`,
   * which differs from its current rank; the actor is an administrator or
   * owner, an administrator never acts on an owner, and an owner never makes
   * an owner this way.
   */
  lemma PromotionRule(rows: seq<Database.Member>, chatId: int, actorRank: string, delta: int, target: Target)
    requires Config.Permitted(Some(actorRank), "upstaff")
    requires Resolve(rows, chatId, actorRank, delta, target).Promoted?
    ensures var o := Resolve(rows, chatId, actorRank, delta, target);
      var before := Database.RankOf(rows, target.id, chatId);
      && (actorRank == "administrator" || actorRank == "owner")
      && o.targetId == target.id && target.id != 0
      && before.Some? && before.value in Config.Ranks && o.newRank in Config.Ranks
      && Config.Ranks[o.newRank] == Min(Config.Ranks[before.value] + delta, Config.MaxLevel)
      && o.newRank != before.value
      && !(actorRank == "administrator" && before.value == "owner")
      && !(actorRank == "owner" && o.newRank == "owner")
  {
    Config.PermissionsExact();
    Config.RanksAreFourOrderedLevels();
  }

  /** A confirmation is only sent to an owner, and its data names the target. */
  lemma ResolveConfirmation(rows: seq<Database.Member>, chatId: int, actorRank: string, delta: int, target: Target)
    requires Resolve(rows, chatId, actorRank, delta, target).ConfirmationSent?
    ensures actorRank == "owner"
    ensures var o := Resolve(rows, chatId, actorRank, delta, target);
      o.targetId == target.id && o.callbackData == Keyboards.ConfirmationData("promote_owner", target.id)
  {
  }

  /**
   * An owner raising someone to owner only gets a confirmation button, whose
   * data is routed to the confirmation handler and decodes to the target.
   */
  lemma UpstaffOwnerTransferIsConfirmed(rows: seq<Database.Member>, msg: Platform.Message)
    requires Upstaff(rows, msg).ConfirmationSent?
    ensures ActorRank(rows, msg) == Some("owner")
    ensures PyText.StartsWith(Upstaff(rows, msg).callbackData, Keyboards.PromoteOwnerPrefix)
    ensures Keyboards.DecodeTarget(Upstaff(rows, msg).callbackData) == Some(Upstaff(rows, msg).targetId)
  {
    UpstaffParsed(rows, msg);
    var actorRank, delta, target :| Parsed(rows, msg, actorRank, delta, target)
      && Upstaff(rows, msg) == Resolve(rows, msg.chatId, actorRank, delta, target);
    ResolveConfirmation(rows, msg.chatId, actorRank, delta, target);
    Keyboards.PromoteOwnerDataRouted(target.id);
    Keyboards.ConfirmationRoundTrip("promote_owner", target.id);
  }

  /** An administrator acting on an owner changes nothing and sends no confirmation. */
  lemma AdminOnOwnerWritesNothing(rows: seq<Database.Member>, chatId: int, delta: int, target: Target)
    requires Database.RankOf(rows, target.id, chatId) == Some("owner")
    ensures var o := Resolve(rows, chatId, "administrator", delta, target);
      !o.Promoted? && !o.ConfirmationSent?
  {
  }

  // ================================================================ owner transfer

  datatype ConfirmOutcome =
    | NoContext            // no user or no chat on the callback
    | NotForYou            // the clicker's current stored rank is not owner
    | DataError            // empty callback data
    | BadData              // the last '_' part is not an integer (ValueError)
    | Transferred(targetId: int)

  /** The outcome of `confirm_owner_promotion`, the clicker's rank re-read from `rows`. */
  function Confirm(rows: seq<Database.Member>, clicker: Option<Platform.User>, chatId: Option<int>, data: Option<string>): ConfirmOutcome {
    if clicker.None? || chatId.None? then NoContext
    else if Database.RankOf(rows, clicker.value.id, chatId.value) != Some("owner") then NotForYou
    else if !Platform.Truthy(data) then DataError
    else match Keyboards.DecodeTarget(data.value)
      case None => BadData
      case Some(t) => Transferred(t)
  }

  /** The two writes of a transfer: the target becomes owner, then the clicker administrator. */
  function TransferWrites(rows: seq<Database.Member>, clickerId: int, chatId: int, targetId: int): seq<Database.Member> {
    Database.SetRank(Database.SetRank(rows, targetId, chatId, "owner"), clickerId, chatId, "administrator")
  }

  method ConfirmOwnerPromotion(db: Database.Database, clicker: Option<Platform.User>, chatId: Option<int>, data: Option<string>)
    returns (o: ConfirmOutcome)
    requires db.Valid()
    modifies db
    ensures db.Valid()
    ensures o == Confirm(old(db.members), clicker, chatId, data)
    ensures db.members == if o.Transferred? then TransferWrites(old(db.members), clicker.value.id, chatId.value, o.targetId) else old(db.members)
    ensures db.users == old(db.users) && db.warnings == old(db.warnings) && db.messageStats == old(db.messageStats)
  {
    if clicker.None? || chatId.None? {
      return NoContext;
    }
    var user, chat := clicker.value, chatId.value;
    var userRank := db.GetUserRank(user.id, chat);
    if userRank != Some("owner") {
      return NotForYou;
    }
    if !Platform.Truthy(data) {
      return DataError;
    }
    var targetUserId := Keyboards.DecodeTarget(data.value);
    if targetUserId.None? {
      return BadData;
    }
    db.UpdateUserRank(targetUserId.value, chat, "owner");
    db.UpdateUserRank(user.id, chat, "administrator");
    o := Transferred(targetUserId.value);
  }

  /**
   * After a transfer the clicker is an administrator; the target is owner if
   * it has a row (and is not the clicker); every other member keeps its rank.
   */
  lemma TransferEffect(rows: seq<Database.Member>, clickerId: int, chatId: int, targetId: int, u: int, c: int)
    ensures var after := TransferWrites(rows, clickerId, chatId, targetId);
      && (u == clickerId && c == chatId && Database.RankOf(rows, u, c).Some? ==> Database.RankOf(after, u, c) == Some("administrator"))
      && (u == targetId && u != clickerId && c == chatId && Database.RankOf(rows, u, c).Some? ==> Database.RankOf(after, u, c) == Some("owner"))
      && (!(c == chatId && (u == clickerId || u == targetId)) ==> Database.RankOf(after, u, c) == Database.RankOf(rows, u, c))
      && (Database.RankOf(rows, u, c).None? ==> Database.RankOf(after, u, c).None?)
  {
    var mid := Database.SetRank(rows, targetId, chatId, "owner");
    Database.UpdateUserRankEffect(rows, targetId, chatId, "owner", u, c);
    Database.UpdateUserRankEffect(mid, clickerId, chatId, "administrator", u, c);
  }

  /** A clicker who is not a stored owner when clicking changes nothing. */
  lemma ConfirmNeedsCurrentOwner(rows: seq<Database.Member>, clicker: Platform.User, chatId: int, data: Option<string>)
    requires Database.RankOf(rows, clicker.id, chatId) != Some("owner")
    ensures Confirm(rows, Some(clicker), Some(chatId), data) == NotForYou
  {
  }

  /** A confirmation button the bot sent transfers to the user it names, when an owner clicks it. */
  lemma ConfirmationButtonTransfers(rows: seq<Database.Member>, msg: Platform.Message,
                                    rows': seq<Database.Member>, clicker: Platform.User)
    requires Upstaff(rows, msg).ConfirmationSent?
    requires Database.RankOf(rows', clicker.id, msg.chatId) == Some("owner")
    ensures Confirm(rows', Some(clicker), Some(msg.chatId), Some(Upstaff(rows, msg).callbackData))
         == Transferred(Upstaff(rows, msg).targetId)
  {
    UpstaffOwnerTransferIsConfirmed(rows, msg);
    var o := Upstaff(rows, msg);
    ConfirmDecoded(rows', clicker, msg.chatId, o.callbackData, o.targetId);
  }

  /** An owner's click on non-empty data that decodes to `id` transfers to `id`. */
  lemma ConfirmDecoded(rows: seq<Database.Member>, clicker: Platform.User, chatId: int, data: string, id: int)
    requires Database.RankOf(rows, clicker.id, chatId) == Some("owner")
    requires PyText.StartsWith(data, Keyboards.PromoteOwnerPrefix) && Keyboards.DecodeTarget(data) == Some(id)
    ensures Confirm(rows, Some(clicker), Some(chatId), Some(data)) == Transferred(id)
  {
    assert data != [];
  }

  // ================================================================ /ban

  datatype BanOutcome =
    | BanRefused(why: Refusal)
    | Banned(targetId: int, reason: string)
    | BanFailed(targetId: int)

  /** The words of `text.split(maxsplit=2)`, as `ban`, `warn` and `kick` read them. */
  function CommandParts(msg: Platform.Message): seq<string> {
    PyText.SplitN(Platform.TextOf(msg), 2)
  }

  /** `ban_command`. It reads the store and never the rate limiter. `banSucceeds` is the platform's answer. */
  method BanCommand(db: Database.Database, msg: Platform.Message, banSucceeds: bool) returns (o: BanOutcome)
    ensures !Platform.InGroup(msg) ==> o == BanRefused(GroupOnly)
    ensures Platform.InGroup(msg) && !Config.Permitted(ActorRank(db.members, msg), "ban") ==> o == BanRefused(RankTooLow)
    ensures o.Banned? || o.BanFailed? ==>
      && Platform.InGroup(msg) && Config.Permitted(ActorRank(db.members, msg), "ban")
      && |CommandParts(msg)| == 3
      && o.targetId == GetTargetUser(Platform.RepliedUser(msg), Platform.TextOf(msg)).id && o.targetId != 0
    ensures o.Banned? ==> banSucceeds && o.reason == CommandParts(msg)[2]
    ensures o.BanFailed? ==> !banSucceeds
    ensures Platform.InGroup(msg) && Config.Permitted(ActorRank(db.members, msg), "ban") && |CommandParts(msg)| == 3
         && GetTargetUser(Platform.RepliedUser(msg), Platform.TextOf(msg)).id != 0
         ==> o.Banned? || o.BanFailed?
  {
    if !(msg.fromUser.Some? && msg.chatType != "private") {
      return BanRefused(GroupOnly);
    }
    var user := msg.fromUser.value;
    var userRank := db.GetUserRank(user.id, msg.chatId);
    if !Config.Permitted(userRank, "ban") {
      return BanRefused(RankTooLow);
    }
    var text := Platform.TextOf(msg);
    var parts := PyText.SplitN(text, 2);
    PyText.SplitNAgrees(text, 2);
    if |parts| < 3 {
      return BanRefused(Usage);
    }
    var target := GetTargetUser(Platform.RepliedUser(msg), text);
    var reason := parts[2];
    if target.id == 0 {
      return BanRefused(NoTarget);
    }
    if banSucceeds {
      o := Banned(target.id, reason);
    } else {
      o := BanFailed(target.id);
    }
  }

  // ================================================================ /warn

  /** The warning count at which `/warn` bans. */
  const AutoBanThreshold: int := 5

  datatype WarnOutcome =
    | WarnRefused(why: Refusal)
    | Warned(targetId: int, count: nat)
    | AutoBanned(targetId: int, count: nat)
    | WarnedBanFailed(targetId: int, count: nat)
  {
    /** The outcomes in which a warning was recorded. */
    predicate Recorded() {
      Warned? || AutoBanned? || WarnedBanFailed?
    }
  }

  /**
   * `warn_command`: permission, then the rate limit (recorded before the
   * arguments are parsed), then one warning row and a re-count; a ban is
   * attempted at 5 or more and its failure does not undo the warning. There
   * is no comparison of the actor's rank with the target's.
   */
  method WarnCommand(db: Database.Database, limiter: RateLimiter, msg: Platform.Message, now: int, banSucceeds: bool)
    returns (o: WarnOutcome)
    requires db.Valid()
    modifies db, limiter
    ensures db.Valid()
    ensures !Platform.InGroup(msg) ==> o == WarnRefused(GroupOnly) && limiter.lastUsed == old(limiter.lastUsed)
    ensures Platform.InGroup(msg) && !Config.Permitted(ActorRank(old(db.members), msg), "warn") ==>
      o == WarnRefused(RankTooLow) && limiter.lastUsed == old(limiter.lastUsed)
    ensures Platform.InGroup(msg) && Config.Permitted(ActorRank(old(db.members), msg), "warn") ==>
      var actor, rank := msg.fromUser.value.id, ActorRank(old(db.members), msg).value;
      && limiter.lastUsed == Recorded(old(limiter.lastUsed), actor, "warn", rank, now)
      && (o == WarnRefused(RateLimited) <==> !RateAllows(old(limiter.lastUsed), actor, "warn", rank, now))
    ensures o.Recorded() ==>
      && |CommandParts(msg)| == 3
      && o.targetId == GetTargetUser(Platform.RepliedUser(msg), Platform.TextOf(msg)).id && o.targetId != 0
      && db.warnings == old(db.warnings) + [Database.Warning(o.targetId, msg.chatId, CommandParts(msg)[2], msg.fromUser.value.id)]
      && o.count == Database.CountWarnings(db.warnings, o.targetId, msg.chatId)
      && (o.Warned? <==> o.count < AutoBanThreshold)
      && (o.AutoBanned? ==> banSucceeds)
      && (o.WarnedBanFailed? ==> !banSucceeds)
    ensures Platform.InGroup(msg) && Config.Permitted(ActorRank(old(db.members), msg), "warn")
         && RateAllows(old(limiter.lastUsed), msg.fromUser.value.id, "warn", ActorRank(old(db.members), msg).value, now)
         && |CommandParts(msg)| == 3 && GetTargetUser(Platform.RepliedUser(msg), Platform.TextOf(msg)).id != 0
         ==> o.Recorded()
    ensures o == WarnRefused(Usage) && !Exempt(ActorRank(old(db.members), msg).value) ==>
      limiter.lastUsed == old(limiter.lastUsed)[LimitKey(msg.fromUser.value.id, "warn") := now]
    ensures !o.Recorded() ==> db.warnings == old(db.warnings)
    ensures db.users == old(db.users) && db.members == old(db.members) && db.messageStats == old(db.messageStats)
  {
    if !(msg.fromUser.Some? && msg.chatType != "private") {
      return WarnRefused(GroupOnly);
    }
    var user := msg.fromUser.value;
    var userRank := db.GetUserRank(user.id, msg.chatId);
    if !Config.Permitted(userRank, "warn") {
      return WarnRefused(RankTooLow);
    }
    var passed := limiter.CheckRateLimit(user.id, "warn", userRank.value, now);
    if !passed {
      return WarnRefused(RateLimited);
    }
    var text := Platform.TextOf(msg);
    var parts := PyText.SplitN(text, 2);
    PyText.SplitNAgrees(text, 2);
    if |parts| < 3 {
      return WarnRefused(Usage);
    }
    var target := GetTargetUser(Platform.RepliedUser(msg), text);
    var reason := parts[2];
    if target.id == 0 {
      return WarnRefused(NoTarget);
    }
    db.AddWarning(target.id, msg.chatId, reason, user.id);
    var warningCount := db.GetWarningCount(target.id, msg.chatId);
    if warningCount >= AutoBanThreshold {
      if banSucceeds {
        o := AutoBanned(target.id, warningCount);
      } else {
        o := WarnedBanFailed(target.id, warningCount);
      }
    } else {
      o := Warned(target.id, warningCount);
    }
  }

  /**
   * Warnings only accumulate: a recorded warning raises its target's count by
   * one, so after four earlier warnings the fifth triggers the ban attempt.
   */
  lemma WarnEscalation(ws: seq<Database.Warning>, w: Database.Warning)
    ensures Database.CountWarnings(ws + [w], w.userId, w.chatId) == Database.CountWarnings(ws, w.userId, w.chatId) + 1
    ensures Database.CountWarnings(ws, w.userId, w.chatId) == AutoBanThreshold - 1 ==>
      Database.CountWarnings(ws + [w], w.userId, w.chatId) >= AutoBanThreshold
    ensures Database.CountWarnings(ws, w.userId, w.chatId) < AutoBanThreshold - 1 ==>
      Database.CountWarnings(ws + [w], w.userId, w.chatId) < AutoBanThreshold
  {
    Database.AddWarningCount(ws, w, w.userId, w.chatId);
  }

  // ================================================================ /kick

  datatype KickOutcome =
    | KickRefused(why: Refusal)
    | Kicked(targetId: int)
    | KickFailed(targetId: int, leftBanned: bool)   // `leftBanned`: the ban went through, the unban did not

  /**
   * `kick_command`: permission, then the rate limit (recorded before the
   * arguments are parsed), then the platform's ban followed by unban.
   */
  method KickCommand(db: Database.Database, limiter: RateLimiter, msg: Platform.Message, now: int,
                     banSucceeds: bool, unbanSucceeds: bool)
    returns (o: KickOutcome)
    modifies limiter
    ensures !Platform.InGroup(msg) ==> o == KickRefused(GroupOnly) && limiter.lastUsed == old(limiter.lastUsed)
    ensures Platform.InGroup(msg) && !Config.Permitted(ActorRank(db.members, msg), "kick") ==>
      o == KickRefused(RankTooLow) && limiter.lastUsed == old(limiter.lastUsed)
    ensures Platform.InGroup(msg) && Config.Permitted(ActorRank(db.members, msg), "kick") ==>
      var actor, rank := msg.fromUser.value.id, ActorRank(db.members, msg).value;
      && limiter.lastUsed == Recorded(old(limiter.lastUsed), actor, "kick", rank, now)
      && (o == KickRefused(RateLimited) <==> !RateAllows(old(limiter.lastUsed), actor, "kick", rank, now))
    ensures o.Kicked? || o.KickFailed? ==>
      && |CommandParts(msg)| == 3
      && o.targetId == GetTargetUser(Platform.RepliedUser(msg), Platform.TextOf(msg)).id && o.targetId != 0
    ensures Platform.InGroup(msg) && Config.Permitted(ActorRank(db.members, msg), "kick")
         && RateAllows(old(limiter.lastUsed), msg.fromUser.value.id, "kick", ActorRank(db.members, msg).value, now)
         && |CommandParts(msg)| == 3 && GetTargetUser(Platform.RepliedUser(msg), Platform.TextOf(msg)).id != 0
         ==> o.Kicked? || o.KickFailed?
    ensures o == KickRefused(Usage) && !Exempt(ActorRank(db.members, msg).value) ==>
      limiter.lastUsed == old(limiter.lastUsed)[LimitKey(msg.fromUser.value.id, "kick") := now]
    ensures o.Kicked? ==> banSucceeds && unbanSucceeds
    ensures o.KickFailed? ==> !(banSucceeds && unbanSucceeds) && (o.leftBanned <==> banSucceeds)
  {
    if !(msg.fromUser.Some? && msg.chatType != "private") {
      return KickRefused(GroupOnly);
    }
    var user := msg.fromUser.value;
    var userRank := db.GetUserRank(user.id, msg.chatId);
    if !Config.Permitted(userRank, "kick") {
      return KickRefused(RankTooLow);
    }
    var passed := limiter.CheckRateLimit(user.id, "kick", userRank.value, now);
    if !passed {
      return KickRefused(RateLimited);
    }
    var text := Platform.TextOf(msg);
    var parts := PyText.SplitN(text, 2);
    PyText.SplitNAgrees(text, 2);
    if |parts| < 3 {
      return KickRefused(Usage);
    }
    var target := GetTargetUser(Platform.RepliedUser(msg), text);
    if target.id == 0 {
      return KickRefused(NoTarget);
    }
    if banSucceeds && unbanSucceeds {
      o := Kicked(target.id);
    } else {
      o := KickFailed(target.id, banSucceeds);
    }
  }

  // ================================================================ /staff

  /** `member['nickname'] or member['first_name'] or member['username'] or str(member['user_id'])`. */
  function StaffName(e: Database.StaffEntry): string {
    Platform.Or(e.nickname, Platform.Or(e.firstName, Platform.Or(e.username, PyText.IntToString(e.userId))))
  }

  const StaffHeader: string := "👥 **Персонал чата:**\n\n"
  const OwnersTitle: string := "👑 **Владельцы:**\n"
  const AdministratorsTitle: string := "⭐ **Администраторы:**\n"
  const ModeratorsTitle: string := "🛡 **Модераторы:**\n"
  const NoStaff: string := "Персонал не назначен."

  /** The line `f"• {name}\n"` of one staff member. */
  function Bullet(e: Database.StaffEntry): (line: string)
    ensures |line| > 0 && line[|line| - 1] == '\n'
  {
    "• " + StaffName(e) + "\n"
  }

  /** One bullet line per entry, in order. */
  function Bullets(entries: seq<Database.StaffEntry>): (r: string)
    ensures entries != [] ==> r != [] && r[|r| - 1] == '\n'
  {
    if entries == [] then ""
    else Bullets(entries[..|entries| - 1]) + Bullet(entries[|entries| - 1])
  }

  /** A titled section, present only when it has entries. */
  function Section(title: string, entries: seq<Database.StaffEntry>, tail: string): string {
    if entries == [] then "" else title + Bullets(entries) + tail
  }

  /** Whether every list of the staff list is empty (`not any(staff.values())`). */
  predicate NoneAssigned(staff: Database.StaffList) {
    staff.owner == [] && staff.administrator == [] && staff.moderator == []
  }

  /** The text `staff_command` sends for a staff list. */
  function StaffText(staff: Database.StaffList): string {
    StaffHeader
    + Section(OwnersTitle, staff.owner, "\n")
    + Section(AdministratorsTitle, staff.administrator, "\n")
    + Section(ModeratorsTitle, staff.moderator, "")
    + (if NoneAssigned(staff) then NoStaff else "")
  }

  /** The staff list `get_staff_list` returns for a chat. */
  function StaffOf(db: Database.Database, chatId: int): Database.StaffList
    reads db
  {
    var q := Database.StaffQuery(db.members, db.users, chatId);
    Database.StaffList(Database.Select(q, db.users, "owner"), Database.Select(q, db.users, "administrator"),
                       Database.Select(q, db.users, "moderator"))
  }

  datatype StaffOutcome = StaffPrivateChat | StaffReply(text: string)

  /** `staff_command`: fetches the staff list and renders it. */
  method StaffCommand(db: Database.Database, msg: Platform.Message) returns (o: StaffOutcome)
    ensures msg.chatType == "private" ==> o == StaffPrivateChat
    ensures msg.chatType != "private" ==> o == StaffReply(StaffText(StaffOf(db, msg.chatId)))
  {
    if msg.chatType == "private" {
      return StaffPrivateChat;
    }
    var staff := db.GetStaffList(msg.chatId);
    var staffText := RenderStaff(staff);
    o := StaffReply(staffText);
  }

  /** The section-by-section building of the reply text in `staff_command`. */
  method RenderStaff(staff: Database.StaffList) returns (staffText: string)
    ensures staffText == StaffText(staff)
  {
    staffText := StaffHeader;
    staffText := AppendSection(staffText, OwnersTitle, staff.owner, "\n");
    staffText := AppendSection(staffText, AdministratorsTitle, staff.administrator, "\n");
    staffText := AppendSection(staffText, ModeratorsTitle, staff.moderator, "");
    if NoneAssigned(staff) {
      staffText := staffText + NoStaff;
    }
  }

  /** `if entries: text += title; <bullets>; text += tail`. */
  method AppendSection(text: string, title: string, entries: seq<Database.StaffEntry>, tail: string) returns (r: string)
    ensures r == text + Section(title, entries, tail)
  {
    if entries == [] {
      return text;
    }
    var withTitle := text + title;
    var withBullets := AppendBullets(withTitle, entries);
    r := withBullets + tail;
    ConcatAssoc(text, title, Bullets(entries));
    ConcatAssoc(text, title + Bullets(entries), tail);
  }

  lemma BulletsSnoc(entries: seq<Database.StaffEntry>, i: int)
    requires 0 <= i < |entries|
    ensures Bullets(entries[..i + 1]) == Bullets(entries[..i]) + Bullet(entries[i])
  {
    assert entries[..i + 1][..i] == entries[..i];
  }

  /** Stated once so that the loops above need not re-prove it for strings holding names. */
  lemma ConcatAssoc(a: string, b: string, c: string)
    ensures (a + b) + c == a + (b + c)
  {
  }

  /** The `for member in ...: staff_text += f"• {name}\n"` loop. */
  method AppendBullets(text: string, entries: seq<Database.StaffEntry>) returns (r: string)
    ensures r == text + Bullets(entries)
  {
    r := text;
    for i := 0 to |entries|
      invariant r == text + Bullets(entries[..i])
    {
      BulletsSnoc(entries, i);
      ConcatAssoc(text, Bullets(entries[..i]), Bullet(entries[i]));
      r := r + Bullet(entries[i]);
    }
    assert entries[..|entries|] == entries;
  }

  /** "Персонал не назначен." closes the text exactly when no staff is listed. */
  lemma StaffTextNoneMessage(staff: Database.StaffList)
    ensures NoneAssigned(staff) ==> StaffText(staff) == StaffHeader + NoStaff
    ensures !NoneAssigned(staff) ==> StaffText(staff)[|StaffText(staff)| - 1] == '\n'
  {
    if !NoneAssigned(staff) {
      var o := Section(OwnersTitle, staff.owner, "\n");
      var a := Section(AdministratorsTitle, staff.administrator, "\n");
      var m := Section(ModeratorsTitle, staff.moderator, "");
      var t := StaffHeader + o + a + m;
      assert StaffText(staff) == t;
      if staff.moderator != [] {
        assert m[|m| - 1] == Bullets(staff.moderator)[|Bullets(staff.moderator)| - 1];
      } else if staff.administrator != [] {
        assert m == "";
      } else {
        assert a == "" && m == "";
      }
    }
  }
}

=== FILE: platform.dfy ===
/**
 * The parts of the chat platform's message objects the handlers read, and
 * Python's truthiness of optional strings (`a or b`).
 */
module Platform {
  import opened Wrappers
  import PyText

  /** A platform user: id, first name and optional username. */
  datatype User = User(id: int, firstName: Option<string>, username: Option<string>)

  /**
   * An incoming message: its sender (absent for channel posts), its chat,
   * its text, and the message it replies to with that message's sender.
   */
  datatype Message = Message(
    fromUser: Option<User>,
    chatId: int,
    chatType: string,
    text: Option<string>,
    replyTo: Option<Option<User>>)

  /** A string value Python treats as true: present and non-empty. */
  predicate Truthy(s: Option<string>) {
    s.Some? && s.value != ""
  }

  /** Python's `a or b` for an optional string `a`. */
  function Or(a: Option<string>, b: string): (r: string)
    ensures Truthy(a) ==> r == a.value
    ensures !Truthy(a) ==> r == b
  {
    if Truthy(a) then a.value else b
  }

  /** `user.first_name or user.username or str(user.id)`. */
  function FallbackName(u: User): string {
    Or(u.firstName, Or(u.username, PyText.IntToString(u.id)))
  }

  /** The negation of the handlers' guard `not user or chat.type == 'private'`. */
  predicate InGroup(msg: Message) {
    msg.fromUser.Some? && msg.chatType != "private"
  }

  /** `message.text or ""`. */
  function TextOf(msg: Message): string {
    msg.text.GetOr("")
  }

  /** `message.reply_to_message and message.reply_to_message.from_user`, when both exist. */
  function RepliedUser(msg: Message): Option<User> {
    if msg.replyTo.Some? then msg.replyTo.value else None
  }

  /**
   * The fallback name shows the first name when it is non-empty, else the
   * username when it is non-empty, else the decimal id.
   */
  lemma FallbackNameCases(u: User)
    ensures Truthy(u.firstName) ==> FallbackName(u) == u.firstName.value
    ensures !Truthy(u.firstName) && Truthy(u.username) ==> FallbackName(u) == u.username.value
    ensures !Truthy(u.firstName) && !Truthy(u.username) ==> FallbackName(u) == PyText.IntToString(u.id)
  {
  }
}

=== FILE: pytext.dfy ===
/**
 * The few Python string operations the bot's handlers rely on, over strings
 * as sequences of code points (Python's `len` counts code points too):
 * `str.isspace`, `strip`/`lstrip`, `split()` with and without `maxsplit`,
 * `split(sep)`, `startswith`, `isdigit`, `str(int)` and `int(str)`.
 */
module PyText {
  import opened Wrappers

  /** Python's `str.isspace()` for a single code point. */
  predicate IsSpace(c: char) {
    c == ' ' || ('\U{9}' <= c <= '\U{D}') || ('\U{1C}' <= c <= '\U{1F}')
    || c == '\U{85}' || c == '\U{A0}' || c == '\U{1680}'
    || ('\U{2000}' <= c <= '\U{200A}') || c == '\U{2028}' || c == '\U{2029}'
    || c == '\U{202F}' || c == '\U{205F}' || c == '\U{3000}'
  }

  predicate StartsWith(s: string, prefix: string) {
    |prefix| <= |s| && s[..|prefix|] == prefix
  }

  // ---------------------------------------------------------------- strip

  /** A string of whitespace only (possibly empty). */
  predicate AllSpace(w: string) {
    forall i :: 0 <= i < |w| ==> IsSpace(w[i])
  }

  /** `s.lstrip()`: drops every leading whitespace character. */
  function LStrip(s: string): (r: string)
    ensures |r| <= |s|
    ensures r == [] || !IsSpace(r[0])
  {
    if s != [] && IsSpace(s[0]) then LStrip(s[1..]) else s
  }

  /** `s.rstrip()`: drops every trailing whitespace character. */
  function RStrip(s: string): (r: string)
    ensures |r| <= |s| && r == s[..|r|]
    ensures r == [] || !IsSpace(r[|r| - 1])
  {
    if s != [] && IsSpace(s[|s| - 1]) then RStrip(s[..|s| - 1]) else s
  }

  /** What `lstrip()` drops is whitespace, and what it keeps is a suffix of `s`. */
  lemma {:induction false} LStripSuffix(s: string)
    ensures LStrip(s) == s[|s| - |LStrip(s)|..]
    ensures AllSpace(s[..|s| - |LStrip(s)|])
    decreases |s|
  {
    if s != [] && IsSpace(s[0]) {
      LStripSuffix(s[1..]);
      var r := LStrip(s);
      assert s[..|s| - |r|] == [s[0]] + s[1..][..|s[1..]| - |r|];
    }
  }

  /** What `rstrip()` drops is whitespace. */
  lemma {:induction false} RStripPrefix(s: string)
    ensures AllSpace(s[|RStrip(s)|..])
    decreases |s|
  {
    if s != [] && IsSpace(s[|s| - 1]) {
      RStripPrefix(s[..|s| - 1]);
      var r := RStrip(s);
      assert s[|r|..] == s[..|s| - 1][|r|..] + [s[|s| - 1]];
    }
  }

  /**
   * `r` is what is left of `s` between a leading and a trailing run of
   * whitespace, and neither end of `r` is whitespace.
   */
  predicate IsStripOf(s: string, r: string) {
    && (r == [] || (!IsSpace(r[0]) && !IsSpace(r[|r| - 1])))
    && exists i :: 0 <= i <= |s| - |r| && AllSpace(s[..i]) && s[i..i + |r|] == r && AllSpace(s[i + |r|..])
  }

  /** `s.strip()`. */
  function Strip(s: string): (r: string)
    ensures |r| <= |s|
    ensures r == [] || (!IsSpace(r[0]) && !IsSpace(r[|r| - 1]))
    ensures IsStripOf(s, r)
  {
    var l := LStrip(s);
    LStripSuffix(s);
    RStripPrefix(l);
    var r := RStrip(l);
    var i := |s| - |l|;
    assert s[i..i + |r|] == l[..|r|];
    assert s[i + |r|..] == l[|r|..];
    r
  }

  /** A string that neither begins nor ends with whitespace is its own `strip()`. */
  lemma StripUntrimmed(s: string)
    requires s != [] && !IsSpace(s[0]) && !IsSpace(s[|s| - 1])
    ensures Strip(s) == s
  {
  }

  /** `strip()` removes any whitespace around a value that is itself trimmed (or empty). */
  lemma StripPadded(left: string, v: string, right: string)
    requires AllSpace(left) && AllSpace(right)
    requires v == [] || (!IsSpace(v[0]) && !IsSpace(v[|v| - 1]))
    ensures Strip(left + v + right) == v
  {
    if v == [] {
      assert left + v + right == left + right + [];
      LStripSpaces(left + right, []);
    } else {
      assert left + v + right == left + (v + right);
      LStripSpaces(left, v + right);
      RStripSpaces(v, right);
    }
  }

  /** `lstrip()` drops a whitespace prefix up to a character that is not whitespace. */
  lemma {:induction false} LStripSpaces(w: string, rest: string)
    requires AllSpace(w)
    requires rest == [] || !IsSpace(rest[0])
    ensures LStrip(w + rest) == rest
    decreases |w|
  {
    if w != [] {
      assert (w + rest)[1..] == w[1..] + rest;
      LStripSpaces(w[1..], rest);
    }
  }

  /** `rstrip()` drops a whitespace suffix back to a character that is not whitespace. */
  lemma {:induction false} RStripSpaces(v: string, w: string)
    requires AllSpace(w)
    requires v == [] || !IsSpace(v[|v| - 1])
    ensures RStrip(v + w) == v
    decreases |w|
  {
    if w != [] {
      assert (v + w)[..|v + w| - 1] == v + w[..|w| - 1];
      RStripSpaces(v, w[..|w| - 1]);
    }
  }

  /** `s.lstrip(c)` for a single character `c`: drops every leading `c`. */
  function LStripChar(s: string, c: char): (r: string)
    ensures |r| <= |s| && r == s[|s| - |r|..]
    ensures forall i :: 0 <= i < |s| - |r| ==> s[i] == c
    ensures r == [] || r[0] != c
    decreases |s|
  {
    if s != [] && s[0] == c then
      var r := LStripChar(s[1..], c);
      assert forall i :: 1 <= i < |s| - |r| ==> s[i] == s[1..][i - 1];
      r
    else s
  }

  // ---------------------------------------------------------------- split()

  /** The longest prefix of `s` that holds no whitespace. */
  function Token(s: string): (r: string)
    ensures |r| <= |s|
  {
    if s == [] || IsSpace(s[0]) then [] else [s[0]] + Token(s[1..])
  }

  /** What follows `Token(s)` in `s`. */
  function AfterToken(s: string): (r: string)
    ensures |r| <= |s|
    ensures s != [] && !IsSpace(s[0]) ==> |r| < |s|
  {
    if s == [] || IsSpace(s[0]) then s else AfterToken(s[1..])
  }

  /** `s.split()`: the maximal runs of non-whitespace characters, in order. */
  function Split(s: string): (r: seq<string>)
    decreases |s|
  {
    var t := LStrip(s);
    if t == [] then []
    else [Token(t)] + Split(AfterToken(t))
  }

  /**
   * `s.split(maxsplit=k)`: like `Split`, but after `k` tokens the rest of
   * the string, with its leading whitespace removed, is the last part.
   */
  function SplitN(s: string, k: nat): seq<string>
    decreases |s|
  {
    var t := LStrip(s);
    if t == [] then []
    else if k == 0 then [t]
    else [Token(t)] + SplitN(AfterToken(t), k - 1)
  }

  /**
   * `split(maxsplit=k)` yields `min(n, k + 1)` parts, where `n` is the number
   * of parts `split()` yields, and its first `k` parts are those of `split()`.
   */
  lemma {:induction false} SplitNAgrees(s: string, k: nat)
    ensures |SplitN(s, k)| == if |Split(s)| <= k + 1 then |Split(s)| else k + 1
    ensures forall i :: 0 <= i < k && i < |SplitN(s, k)| ==> SplitN(s, k)[i] == Split(s)[i]
    decreases |s|
  {
    var t := LStrip(s);
    if t != [] {
      var rest := AfterToken(t);
      assert Split(s) == [Token(t)] + Split(rest);
      if k > 0 {
        assert SplitN(s, k) == [Token(t)] + SplitN(rest, k - 1);
        SplitNAgrees(rest, k - 1);
      }
    }
  }

  /** A non-empty string without whitespace: one word of `split()`. */
  predicate IsWord(w: string) {
    w != [] && forall i :: 0 <= i < |w| ==> !IsSpace(w[i])
  }

  /** A word followed by whitespace (or nothing) is read as one token. */
  lemma {:induction false} TokenOfWord(w: string, rest: string)
    requires forall i :: 0 <= i < |w| ==> !IsSpace(w[i])
    requires rest == [] || IsSpace(rest[0])
    ensures Token(w + rest) == w && AfterToken(w + rest) == rest
    decreases |w|
  {
    if w == [] {
      assert w + rest == rest;
    } else {
      assert (w + rest)[1..] == w[1..] + rest;
      TokenOfWord(w[1..], rest);
      assert [w[0]] + w[1..] == w;
    }
  }

  /** `(w + " " + rest).split()` is `w` followed by `rest.split()`. */
  lemma SplitWords(w: string, rest: string)
    requires IsWord(w)
    ensures Split(w + " " + rest) == [w] + Split(rest)
  {
    var s := w + " " + rest;
    assert s == w + (" " + rest);
    assert !IsSpace(s[0]);
    TokenOfWord(w, " " + rest);
    assert (" " + rest)[1..] == rest;
    assert LStrip(" " + rest) == LStrip(rest);
  }

  /** A single word splits into itself. */
  lemma SplitWord(w: string)
    requires IsWord(w)
    ensures Split(w) == [w]
  {
    assert !IsSpace(w[0]);
    TokenOfWord(w, []);
    assert w + [] == w;
  }

  // ---------------------------------------------------------------- split(sep)

  /** `s.split(c)` with an explicit one-character separator (empty parts kept). */
  function SplitOn(s: string, c: char): (r: seq<string>)
    ensures |r| >= 1
    ensures c in s ==> |r| >= 2
    ensures forall i :: 0 <= i < |r| ==> c !in r[i]
  {
    if s == [] then [""]
    else
      var rest := SplitOn(s[1..], c);
      if s[0] == c then [""] + rest else [[s[0]] + rest[0]] + rest[1..]
  }

  function Last<T>(s: seq<T>): T
    requires |s| > 0
  {
    s[|s| - 1]
  }

  /** The last part of `(p + [c] + q).split(c)` is `q` whenever `q` holds no `c`. */
  lemma {:induction false} LastPartAfterSeparator(p: string, c: char, q: string)
    requires c !in q
    ensures Last(SplitOn(p + [c] + q, c)) == q
    decreases |p|
  {
    if p == [] {
      assert p + [c] + q == [c] + q;
      NoSeparatorSingleton(q, c);
    } else {
      assert (p + [c] + q)[1..] == p[1..] + [c] + q;
      LastPartAfterSeparator(p[1..], c, q);
    }
  }

  lemma {:induction false} NoSeparatorSingleton(q: string, c: char)
    requires c !in q
    ensures SplitOn(q, c) == [q]
    decreases |q|
  {
    if q != [] {
      assert q[0] != c;
      NoSeparatorSingleton(q[1..], c);
      assert [q[0]] + q[1..] == q;
    }
  }

  // ---------------------------------------------------------------- numerals

  predicate IsAsciiDigit(c: char) {
    '0' <= c <= '9'
  }

  /** `s.isdigit()`, for ASCII digits. */
  predicate IsDigitString(s: string) {
    |s| > 0 && forall i :: 0 <= i < |s| ==> IsAsciiDigit(s[i])
  }

  /** The value of a string of decimal digits. */
  function DigitsValue(s: string): nat
    requires forall i :: 0 <= i < |s| ==> IsAsciiDigit(s[i])
  {
    if s == [] then 0
    else
      assert IsAsciiDigit(s[|s| - 1]);
      DigitsValue(s[..|s| - 1]) * 10 + (s[|s| - 1] as int - '0' as int)
  }

  /** `str(n)` for a natural number. */
  function NatToString(n: nat): (r: string)
    ensures IsDigitString(r)
  {
    var d := [('0' as int + n % 10) as char];
    if n < 10 then d else NatToString(n / 10) + d
  }

  /** A digit string is a single word of `split()`. */
  lemma DigitsAreWord(s: string)
    requires IsDigitString(s)
    ensures IsWord(s)
  {
    forall i | 0 <= i < |s|
      ensures !IsSpace(s[i])
    {
      assert IsAsciiDigit(s[i]);
    }
  }

  /** `str(n)`: a decimal numeral, with a leading '-' for a negative number. */
  function IntToString(n: int): string {
    if n < 0 then "-" + NatToString(-n) else NatToString(n)
  }

  lemma {:induction false} NatToStringValue(n: nat)
    ensures DigitsValue(NatToString(n)) == n
  {
    var d := [('0' as int + n % 10) as char];
    if n >= 10 {
      NatToStringValue(n / 10);
      var s := NatToString(n / 10) + d;
      assert s[..|s| - 1] == NatToString(n / 10);
    }
  }

  /** A numeral never contains '_' nor whitespace. */
  lemma IntToStringChars(n: int)
    ensures '_' !in IntToString(n)
    ensures IntToString(n) != [] && !IsSpace(IntToString(n)[0])
    ensures !IsSpace(IntToString(n)[|IntToString(n)| - 1])
  {
  }

  /**
   * The body of a Python integer literal: ASCII digits, where single
   * underscores may separate two digits.
   */
  predicate IsIntBody(s: string) {
    && |s| > 0
    && IsAsciiDigit(s[0]) && IsAsciiDigit(s[|s| - 1])
    && (forall i :: 0 <= i < |s| ==> IsAsciiDigit(s[i]) || s[i] == '_')
    && NoDoubleUnderscore(s)
  }

  /** No two adjacent underscores. */
  predicate NoDoubleUnderscore(s: string) {
    |s| < 2 || (!(s[0] == '_' && s[1] == '_') && NoDoubleUnderscore(s[1..]))
  }

  function RemoveUnderscores(s: string): (r: string)
    ensures forall i :: 0 <= i < |r| ==> r[i] != '_' && r[i] in s
    ensures '_' !in s ==> r == s
  {
    if s == [] then []
    else if s[|s| - 1] == '_' then RemoveUnderscores(s[..|s| - 1])
    else RemoveUnderscores(s[..|s| - 1]) + [s[|s| - 1]]
  }

  /**
   * `int(s)` over ASCII digits: surrounding whitespace is ignored, an
   * optional sign may come first, single underscores may separate digits.
   * Anything else is `None`, standing for Python's ValueError; Python's
   * `int` also accepts the decimal digits of other scripts, which are
   * rejected here.
   */
  function ParseInt(s: string): Option<int> {
    ParseSigned(Strip(s))
  }

  /** `int` of a string without surrounding whitespace: an optional sign, then the body. */
  function ParseSigned(t: string): Option<int> {
    if t != [] && (t[0] == '-' || t[0] == '+') then
      match ParseBody(t[1..])
      case None => None
      case Some(v) => var x: int := v; Some(if t[0] == '-' then -x else x)
    else ParseBody(t)
  }

  /** The value of an integer literal body, or `None` when it is not one. */
  function ParseBody(body: string): (r: Option<nat>)
    ensures r.Some? <==> IsIntBody(body)
  {
    if IsIntBody(body) then Some(DigitsValue(RemoveUnderscores(body))) else None
  }

  /** A string of ASCII digits is an integer literal body worth its digits. */
  lemma ParseDigitBody(d: string)
    requires IsDigitString(d)
    ensures ParseBody(d) == Some(DigitsValue(d))
  {
    DigitsAreIntBody(d);
  }

  lemma {:induction false} DigitsAreIntBody(d: string)
    requires IsDigitString(d)
    ensures IsIntBody(d) && RemoveUnderscores(d) == d
  {
    assert IsAsciiDigit(d[0]) && IsAsciiDigit(d[|d| - 1]);
    if |d| >= 2 {
      DigitsAreIntBody(d[1..]);
    }
  }

  /** A string of ASCII digits has no surrounding whitespace. */
  lemma DigitsUntrimmed(d: string)
    requires IsDigitString(d)
    ensures Strip(d) == d
  {
    assert IsAsciiDigit(d[0]) && IsAsciiDigit(d[|d| - 1]);
    StripUntrimmed(d);
  }

  /** `int(s)` of a string of ASCII digits is the value of those digits. */
  lemma ParseDigitString(s: string)
    requires IsDigitString(s)
    ensures ParseInt(s) == Some(DigitsValue(s))
  {
    DigitsUntrimmed(s);
    ParseDigitBody(s);
  }

  /** `int(str(n)) == n` for every integer. */
  lemma IntRoundTrip(n: int)
    ensures ParseInt(IntToString(n)) == Some(n)
  {
    if n < 0 {
      NegativeRoundTrip(n);
    } else {
      ParseDigitString(NatToString(n));
      NatToStringValue(n);
    }
  }

  lemma NegativeRoundTrip(n: int)
    requires n < 0
    ensures ParseInt(IntToString(n)) == Some(n)
  {
    NumeralBody(-n);
    ParseMinusDigits(NatToString(-n), n);
  }

  /** The digits of `str(m)` form an integer literal body worth `m`. */
  lemma NumeralBody(m: nat)
    ensures IsDigitString(NatToString(m)) && ParseBody(NatToString(m)) == Some(m)
  {
    ParseDigitBody(NatToString(m));
    NatToStringValue(m);
  }

  /** `int("-" + d)` is `n` when the ASCII digits `d` are worth `-n`. */
  lemma ParseMinusDigits(d: string, n: int)
    requires n < 0 && IsDigitString(d) && ParseBody(d) == Some(-n)
    ensures ParseInt("-" + d) == Some(n)
  {
    MinusDigitsUntrimmed(d);
    ParseMinus(d, -n);
  }

  /** A minus sign followed by ASCII digits has no surrounding whitespace. */
  lemma MinusDigitsUntrimmed(d: string)
    requires IsDigitString(d)
    ensures Strip("-" + d) == "-" + d
  {
    var s := "-" + d;
    assert s[|s| - 1] == d[|d| - 1];
    assert IsAsciiDigit(d[|d| - 1]);
    StripUntrimmed(s);
  }

  /** A minus sign negates the value of the body that follows it. */
  lemma ParseMinus(body: string, v: nat)
    requires ParseBody(body) == Some(v)
    ensures ParseSigned("-" + body) == Some(-(v as int))
  {
    var t := "-" + body;
    assert t[1..] == body;
  }
}

=== FILE: user_handlers.dfy ===
/**
 * The profile commands: `/me` and `/you` (with their target extraction and
 * display-name and rank-label fallbacks), and `/nickname` and
 * `/description` (prefix stripping, length limits and the store write).
 */
module UserHandlers {
  import opened Wrappers
  import PyText
  import Config
  import Platform
  import Database
  import ModerationHandlers

  type Target = ModerationHandlers.Target

  // ================================================================ targets

  /**
   * `get_target_user_for_profile`: the replied-to user if any, otherwise
   * the second whitespace-separated word of the text, otherwise (0, "").
   */
  function GetTargetUserForProfile(msg: Platform.Message): (t: Target)
    ensures Platform.RepliedUser(msg).Some? ==>
      var u := Platform.RepliedUser(msg).value;
      t == ModerationHandlers.Target(u.id, Platform.FallbackName(u))
    ensures Platform.RepliedUser(msg).None? && |PyText.Split(Platform.TextOf(msg))| <= 1 ==> t == ModerationHandlers.Target(0, "")
    ensures Platform.RepliedUser(msg).None? && |PyText.Split(Platform.TextOf(msg))| > 1 ==>
      t == ModerationHandlers.WordTarget(PyText.Split(Platform.TextOf(msg))[1])
  {
    if Platform.RepliedUser(msg).Some? then
      var user := Platform.RepliedUser(msg).value;
      ModerationHandlers.Target(user.id, Platform.FallbackName(user))
    else
      var parts := PyText.Split(Platform.TextOf(msg));
      if |parts| > 1 then ModerationHandlers.WordTarget(parts[1]) else ModerationHandlers.Target(0, "")
  }

  /** Without a reply, `<command> <id>` names the user with that id. */
  lemma ProfileTargetById(msg: Platform.Message, command: string, id: nat)
    requires Platform.RepliedUser(msg).None? && PyText.IsWord(command)
    requires msg.text == Some(command + " " + PyText.NatToString(id))
    ensures GetTargetUserForProfile(msg) == ModerationHandlers.Target(id, PyText.NatToString(id))
  {
    var digits := PyText.NatToString(id);
    PyText.DigitsAreWord(digits);
    PyText.SplitWord(digits);
    PyText.SplitWords(command, digits);
    PyText.NatToStringValue(id);
  }

  /** Without a reply, `<command> @name` names no resolvable user: the id is 0. */
  lemma ProfileTargetByUsername(msg: Platform.Message, command: string, name: string)
    requires Platform.RepliedUser(msg).None? && PyText.IsWord(command) && PyText.IsWord("@" + name)
    requires msg.text == Some(command + " @" + name)
    ensures GetTargetUserForProfile(msg) == ModerationHandlers.Target(0, "@" + name)
  {
    PyText.SplitWord("@" + name);
    assert command + " @" + name == command + " " + ("@" + name);
    PyText.SplitWords(command, "@" + name);
    assert ("@" + name)[..1] == "@";
  }

  // ================================================================ nickname and description

  /** The longest nickname `nickname_command` stores. */
  const MaxNicknameLength: nat := 50

  /** The longest description `description_command` stores. */
  const MaxDescriptionLength: nat := 200

  /** The nickname a message sets: the stripped text after its prefix, or "" without one. */
  function ParseNickname(text: string): (nickname: string)
    ensures |nickname| <= |text|
    ensures nickname == [] || (!PyText.IsSpace(nickname[0]) && !PyText.IsSpace(nickname[|nickname| - 1]))
    ensures PyText.StartsWith(text, "/nickname ") ==> PyText.IsStripOf(text[10..], nickname)
    ensures !PyText.StartsWith(text, "/nickname ") && (PyText.StartsWith(text, "+ник ") || PyText.StartsWith(text, "+имя "))
            ==> PyText.IsStripOf(text[5..], nickname)
    ensures !PyText.StartsWith(text, "/nickname ") && !PyText.StartsWith(text, "+ник ") && !PyText.StartsWith(text, "+имя ")
            ==> nickname == ""
  {
    if PyText.StartsWith(text, "/nickname ") then PyText.Strip(text[10..])
    else if PyText.StartsWith(text, "+ник ") then PyText.Strip(text[5..])
    else if PyText.StartsWith(text, "+имя ") then PyText.Strip(text[5..])
    else ""
  }

  /** The description a message sets: the stripped text after its prefix, or "" without one. */
  function ParseDescription(text: string): (description: string)
    ensures |description| <= |text|
    ensures description == [] || (!PyText.IsSpace(description[0]) && !PyText.IsSpace(description[|description| - 1]))
    ensures PyText.StartsWith(text, "/description ") ==> PyText.IsStripOf(text[13..], description)
    ensures !PyText.StartsWith(text, "/description ") && PyText.StartsWith(text, "+опис ")
            ==> PyText.IsStripOf(text[6..], description)
    ensures !PyText.StartsWith(text, "/description ") && !PyText.StartsWith(text, "+опис ") && PyText.StartsWith(text, "+описание ")
            ==> PyText.IsStripOf(text[10..], description)
    ensures !PyText.StartsWith(text, "/description ") && !PyText.StartsWith(text, "+опис ") && !PyText.StartsWith(text, "+описание ")
            ==> description == ""
  {
    if PyText.StartsWith(text, "/description ") then PyText.Strip(text[13..])
    else if PyText.StartsWith(text, "+опис ") then PyText.Strip(text[6..])
    else if PyText.StartsWith(text, "+описание ") then PyText.Strip(text[10..])
    else ""
  }

  /** A value that neither begins nor ends with whitespace. */
  predicate Trimmed(v: string) {
    v != [] && !PyText.IsSpace(v[0]) && !PyText.IsSpace(v[|v| - 1])
  }

  /** After any of the three prefixes, a trimmed nickname is read back unchanged. */
  lemma NicknameRoundTrip(prefix: string, nickname: string)
    requires prefix in ["/nickname ", "+ник ", "+имя "]
    requires Trimmed(nickname)
    ensures ParseNickname(prefix + nickname) == nickname
  {
    assert prefix + "" + nickname + "" == prefix + nickname;
    NicknameStripsPadding(prefix, "", nickname, "");
  }

  /** After any of the three prefixes, a trimmed description is read back unchanged. */
  lemma DescriptionRoundTrip(prefix: string, description: string)
    requires prefix in ["/description ", "+опис ", "+описание "]
    requires Trimmed(description)
    ensures ParseDescription(prefix + description) == description
  {
    assert prefix + "" + description + "" == prefix + description;
    DescriptionStripsPadding(prefix, "", description, "");
  }

  /** `prefix + v` starts with `prefix`, and what follows it is `v`. */
  lemma AfterPrefix(prefix: string, v: string)
    ensures PyText.StartsWith(prefix + v, prefix) && (prefix + v)[|prefix|..] == v
  {
    assert (prefix + v)[..|prefix|] == prefix;
  }

  /** `p + v` does not start with `q` when `p` and `q` differ at index `k`. */
  lemma OtherPrefix(p: string, v: string, q: string, k: nat)
    requires k < |p| && k < |q| && p[k] != q[k]
    ensures !PyText.StartsWith(p + v, q)
  {
    assert (p + v)[k] == p[k];
    assert |q| <= |p + v| ==> (p + v)[..|q|][k] == (p + v)[k];
  }

  /**
   * After any of the three prefixes, whitespace around the nickname is
   * dropped; text that is only whitespace gives the empty nickname.
   */
  lemma NicknameStripsPadding(prefix: string, left: string, nickname: string, right: string)
    requires prefix in ["/nickname ", "+ник ", "+имя "]
    requires PyText.AllSpace(left) && PyText.AllSpace(right)
    requires nickname == [] || Trimmed(nickname)
    ensures ParseNickname(prefix + left + nickname + right) == nickname
  {
    var rest := left + nickname + right;
    assert prefix + left + nickname + right == prefix + rest;
    NicknameAfterPrefix(prefix, rest);
    PyText.StripPadded(left, nickname, right);
  }

  /** Each prefix is recognised as itself, and what follows it is stripped. */
  lemma NicknameAfterPrefix(prefix: string, rest: string)
    requires prefix in ["/nickname ", "+ник ", "+имя "]
    ensures ParseNickname(prefix + rest) == PyText.Strip(rest)
  {
    AfterPrefix(prefix, rest);
    if prefix != "/nickname " {
      OtherPrefix(prefix, rest, "/nickname ", 0);
    }
    if prefix == "+имя " {
      OtherPrefix(prefix, rest, "+ник ", 1);
    }
  }

  /**
   * After any of the three prefixes, whitespace around the description is
   * dropped; text that is only whitespace gives the empty description.
   */
  lemma DescriptionStripsPadding(prefix: string, left: string, description: string, right: string)
    requires prefix in ["/description ", "+опис ", "+описание "]
    requires PyText.AllSpace(left) && PyText.AllSpace(right)
    requires description == [] || Trimmed(description)
    ensures ParseDescription(prefix + left + description + right) == description
  {
    var rest := left + description + right;
    assert prefix + left + description + right == prefix + rest;
    DescriptionAfterPrefix(prefix, rest);
    PyText.StripPadded(left, description, right);
  }

  /** Each prefix is recognised as itself, "+описание " included, and what follows it is stripped. */
  lemma DescriptionAfterPrefix(prefix: string, rest: string)
    requires prefix in ["/description ", "+опис ", "+описание "]
    ensures ParseDescription(prefix + rest) == PyText.Strip(rest)
  {
    AfterPrefix(prefix, rest);
    if prefix != "/description " {
      OtherPrefix(prefix, rest, "/description ", 0);
    }
    if prefix == "+описание " {
      OtherPrefix(prefix, rest, "+опис ", 5);
    }
  }

  datatype EditOutcome =
    | EditGroupOnly       // private chat, or no sender
    | Missing             // no prefix, or nothing after it
    | TooLong             // longer than the limit
    | Saved(value: string)

  /** The checks shared by both edit commands: non-empty, then at most `limit` characters. */
  function Validate(value: string, limit: nat): (o: EditOutcome)
    ensures o.Saved? <==> 0 < |value| <= limit
    ensures o.Saved? ==> o.value == value
    ensures o == Missing <==> value == ""
  {
    if value == "" then Missing
    else if |value| > limit then TooLong
    else Saved(value)
  }

  /** The `users` table after a nickname or description write: `UPDATE` of a missing row does nothing. */
  function UpdatedUsers(users: map<int, Database.UserRow>, userId: int, o: EditOutcome, nickname: bool): map<int, Database.UserRow> {
    if o.Saved? && userId in users then
      users[userId := if nickname then users[userId].(nickname := Some(o.value)) else users[userId].(description := Some(o.value))]
    else users
  }

  /** `nickname_command`. */
  method NicknameCommand(db: Database.Database, msg: Platform.Message) returns (o: EditOutcome)
    requires db.Valid()
    modifies db
    ensures db.Valid()
    ensures !Platform.InGroup(msg) ==> o == EditGroupOnly
    ensures Platform.InGroup(msg) ==> o == Validate(ParseNickname(Platform.TextOf(msg)), MaxNicknameLength)
    ensures o.Saved? ==> Trimmed(o.value) && |o.value| <= MaxNicknameLength
    ensures db.users == UpdatedUsers(old(db.users), if msg.fromUser.Some? then msg.fromUser.value.id else 0, o, true)
    ensures db.members == old(db.members) && db.warnings == old(db.warnings) && db.messageStats == old(db.messageStats)
  {
    if !(msg.fromUser.Some? && msg.chatType != "private") {
      return EditGroupOnly;
    }
    var user := msg.fromUser.value;
    var text := Platform.TextOf(msg);
    var nickname := ParseNickname(text);
    if nickname == "" {
      return Missing;
    }
    if |nickname| > MaxNicknameLength {
      return TooLong;
    }
    db.SetUserNickname(user.id, nickname);
    o := Saved(nickname);
  }

  /** `description_command`. */
  method DescriptionCommand(db: Database.Database, msg: Platform.Message) returns (o: EditOutcome)
    requires db.Valid()
    modifies db
    ensures db.Valid()
    ensures !Platform.InGroup(msg) ==> o == EditGroupOnly
    ensures Platform.InGroup(msg) ==> o == Validate(ParseDescription(Platform.TextOf(msg)), MaxDescriptionLength)
    ensures o.Saved? ==> Trimmed(o.value) && |o.value| <= MaxDescriptionLength
    ensures db.users == UpdatedUsers(old(db.users), if msg.fromUser.Some? then msg.fromUser.value.id else 0, o, false)
    ensures db.members == old(db.members) && db.warnings == old(db.warnings) && db.messageStats == old(db.messageStats)
  {
    if !(msg.fromUser.Some? && msg.chatType != "private") {
      return EditGroupOnly;
    }
    var user := msg.fromUser.value;
    var text := Platform.TextOf(msg);
    var description := ParseDescription(text);
    if description == "" {
      return Missing;
    }
    if |description| > MaxDescriptionLength {
      return TooLong;
    }
    db.SetUserDescription(user.id, description);
    o := Saved(description);
  }

  // ================================================================ profiles

  /** What a profile reply shows; `description` None is the "не установлено" line. */
  datatype Profile = Profile(name: string, userId: int, messageCount: int, rankLabel: string, description: Option<string>)

  datatype ProfileOutcome =
    | ProfileGroupOnly
    | NoTargetGiven       // `/you` without a reply or numeric id
    | NotInChat           // `/you` on a user without a stored rank
    | Shown(profile: Profile)

  /** The stored nickname, when the user has a row and the nickname is non-empty. */
  function StoredNickname(info: Option<Database.UserRow>): Option<string> {
    if info.Some? && Platform.Truthy(info.value.nickname) then info.value.nickname else None
  }

  /** `/me`'s display name: the nickname if set, else first name, else username, else the id. */
  function MeDisplayName(info: Option<Database.UserRow>, user: Platform.User): (name: string)
    ensures StoredNickname(info).Some? ==> name == StoredNickname(info).value
    ensures StoredNickname(info).None? && Platform.Truthy(user.firstName) ==> name == user.firstName.value
    ensures StoredNickname(info).None? && !Platform.Truthy(user.firstName) && Platform.Truthy(user.username) ==> name == user.username.value
    ensures StoredNickname(info).None? && !Platform.Truthy(user.firstName) && !Platform.Truthy(user.username) ==> name == PyText.IntToString(user.id)
  {
    var nickname := StoredNickname(info);
    if nickname.Some? then nickname.value else Platform.FallbackName(user)
  }

  /** The profile's description line: the stored description when non-empty. */
  function DescriptionShown(info: Option<Database.UserRow>): (d: Option<string>)
    ensures d.Some? <==> info.Some? && Platform.Truthy(info.value.description)
    ensures d.Some? ==> d == info.value.description
  {
    if info.Some? && Platform.Truthy(info.value.description) then info.value.description else None
  }

  /** The `users` row of a user, as `get_user_info` returns it. */
  function InfoOf(users: map<int, Database.UserRow>, userId: int): Option<Database.UserRow> {
    if userId in users then Some(users[userId]) else None
  }

  /** `me_command`: the sender's own profile in this chat. */
  method MeCommand(db: Database.Database, msg: Platform.Message) returns (o: ProfileOutcome)
    ensures !Platform.InGroup(msg) <==> o == ProfileGroupOnly
    ensures o.Shown? ==>
      var user := msg.fromUser.value;
      var info := InfoOf(db.users, user.id);
      && o.profile.userId == user.id
      && o.profile.name == MeDisplayName(info, user)
      && o.profile.messageCount == Database.MessageCountOf(db.members, user.id, msg.chatId)
      && o.profile.rankLabel == Config.RankLabel(Database.RankOf(db.members, user.id, msg.chatId))
      && o.profile.description == DescriptionShown(info)
    ensures Platform.InGroup(msg) ==> o.Shown?
  {
    if !(msg.fromUser.Some? && msg.chatType != "private") {
      return ProfileGroupOnly;
    }
    var user := msg.fromUser.value;
    var userInfo := db.GetUserInfo(user.id);
    var userRank := db.GetUserRank(user.id, msg.chatId);
    var messageCount := db.GetUserMessageCount(user.id, msg.chatId);
    var displayName := MeDisplayName(userInfo, user);
    o := Shown(Profile(displayName, user.id, messageCount, Config.RankLabel(userRank), DescriptionShown(userInfo)));
  }

  /** `you_command`: another user's profile, refused without a target or without a stored rank. */
  method YouCommand(db: Database.Database, msg: Platform.Message) returns (o: ProfileOutcome)
    ensures !Platform.InGroup(msg) <==> o == ProfileGroupOnly
    ensures Platform.InGroup(msg) ==>
      var target := GetTargetUserForProfile(msg);
      var rank := Database.RankOf(db.members, target.id, msg.chatId);
      && (o == NoTargetGiven <==> target.id == 0)
      && (o == NotInChat <==> target.id != 0 && !Platform.Truthy(rank))
      && (o.Shown? ==>
            var info := InfoOf(db.users, target.id);
            && o.profile.userId == target.id
            && o.profile.name == (if StoredNickname(info).Some? then StoredNickname(info).value else target.name)
            && o.profile.messageCount == Database.MessageCountOf(db.members, target.id, msg.chatId)
            && o.profile.rankLabel == Config.RankLabel(rank)
            && o.profile.description == DescriptionShown(info))
  {
    if !(msg.fromUser.Some? && msg.chatType != "private") {
      return ProfileGroupOnly;
    }
    var target := GetTargetUserForProfile(msg);
    if target.id == 0 {
      return NoTargetGiven;
    }
    var userInfo := db.GetUserInfo(target.id);
    var userRank := db.GetUserRank(target.id, msg.chatId);
    var messageCount := db.GetUserMessageCount(target.id, msg.chatId);
    if !Platform.Truthy(userRank) {
      return NotInChat;
    }
    var nickname := StoredNickname(userInfo);
    var displayName := if nickname.Some? then nickname.value else target.name;
    o := Shown(Profile(displayName, target.id, messageCount, Config.RankLabel(userRank), DescriptionShown(userInfo)));
  }

  /**
   * A user with no row in the chat sees "Неизвестен" and zero messages in
   * `/me`; a stored rank of `RANKS` is shown by its `RANK_NAMES` label.
   */
  lemma ProfileRankFallback(rows: seq<Database.Member>, userId: int, chatId: int)
    ensures Database.FindRow(rows, userId, chatId).None? ==>
      Config.RankLabel(Database.RankOf(rows, userId, chatId)) == "Неизвестен"
      && Database.MessageCountOf(rows, userId, chatId) == 0
    ensures Database.RankOf(rows, userId, chatId).Some? && Database.RankOf(rows, userId, chatId).value in Config.Ranks ==>
      Config.RankLabel(Database.RankOf(rows, userId, chatId)) == Config.RankNames[Database.RankOf(rows, userId, chatId).value]
  {
    Config.RankNamesCoverRanks();
  }
}

=== FILE: wrappers.dfy ===
/** The optional value used for Python's `None`-or-value results. */
module Wrappers {

  datatype Option<+T> = None | Some(value: T) {

    /** The value, or `default` when there is none. */
    function GetOr(default: T): T {
      match this
      case Some(v) => v
      case None => default
    }
  }
}
